=== FILE: README.md ===
# Association resolution in linq2db's query translator

This project models how linq2db turns a navigation through an association
(`order.Customer`, `order.Lines`) into SQL. It follows the associated-table
context of the query builder. The SQL side (tables, table sources, joins,
conditions, column expressions) is modelled as immutable datatypes. The
expression-tree side is modelled only as far as the per-row fallback query
needs it: lambda parameters, member accesses, comparisons and query
operators. Each in-place mutation of the builder becomes a function or a
method that returns the updated value. The exceptions the builder throws
are `Failure`s of a `Result`, except the ones listed under "Left out".
Those include the implicit ones: a missing
dictionary key, a dereferenced missing join, an empty guard, an empty
lambda body, a column index outside the inner select list and an invalid
alias format. Two things the source takes for granted are preconditions
instead: the parent query has a first table, and an association's key
lists have equal length.

The modules:

- `SqlModel`: the SQL query model, the join kinds, the errors and the
  "reads this table" predicates.
- `JoinCondition`: the association join condition. It has one key
  equality per key pair, then an optional inheritance discriminator, then
  the extra predicate's conditions, and it counts the regular conditions.
- `Alias`: the alias of the association's table source, with the one-argument
  composite formatting that fills in the alias pattern.
- `SourceLookup`: finding the parent's table in the parent query's FROM
  clause, depth first through joins and nested queries, and adding a join
  at the place found.
- `Rewrite`: the field-replacement map from placeholder columns to parent
  columns, and the substitution that applies it. The substitution is proved
  equal to a table rename.
- `MergeEngine`: inlining an association query method. It finds the owner
  (placeholder) table, promotes its joins for optional associations,
  splices them onto the parent's first table source, rewrites, and appends
  the remaining tables.
- `Composition`: the constructor's choice between a standalone subquery,
  an inlined query method and a plain weak join, plus the column hand-over
  of a delegated context.
- `NullGuard`: the null guard that makes an outer-joined association
  object null when all its key columns are NULL.
- `LinqModel`, `LoadWithChains` and `Collection`: the collection
  fallback. This is the one-query-per-parent-row query with its key
  filter, its load-with chains and the conversion to the member's
  container type, behind the multiple-query switch.

## Model

| member | source | states |
|---|---|---|
| JoinCondition.BuildAssociationCondition | Source/LinqToDB/Linq/Builder/TableBuilder.AssociatedTableContext.cs:184-225 | fails exactly when some key is missing, with the first missing key (parent side before child side); on success the list starts with one converted key equality per key pair in key order, then the discriminator exactly when the resolved object type differs from the declared one and the predicate is not a bare expression; the regular count covers exactly those, and the extra predicate's conditions follow it |
| Alias.SetTableAlias | Source/LinqToDB/Linq/Builder/TableBuilder.AssociatedTableContext.cs:170-182 | a missing table stays missing; otherwise only the alias changes: the association's own alias wins, else the configured pattern filled in with the member name, else nothing changes; it fails exactly when the pattern is used and is not a valid format string |
| Alias.FormatAlias | Source/LinqToDB/Linq/Builder/TableBuilder.AssociatedTableContext.cs:179-180 | formatting fails only with the invalid-format error and only for a pattern that contains a brace |
| Alias.FormatPlainFirst | Source/LinqToDB/Linq/Builder/TableBuilder.AssociatedTableContext.cs:179-180 | a pattern starting with a character other than a brace copies that character and formats the rest |
| Alias.FormatStrayFirst | Source/LinqToDB/Linq/Builder/TableBuilder.AssociatedTableContext.cs:179-180 | a pattern starting with a lone `}`, or a `{` that starts neither `{{` nor `{0}`, is invalid |
| Alias.FormatWithoutItems | Source/LinqToDB/Linq/Builder/TableBuilder.AssociatedTableContext.cs:179-180 | a pattern without braces is used as the alias verbatim |
| Alias.FormatFirstItem | Source/LinqToDB/Linq/Builder/TableBuilder.AssociatedTableContext.cs:179-180 | the member name replaces the pattern's first `{0}` item, with the brace-free text before it kept and the rest formatted in turn |
| Alias.FormatRejectsStrayBrace | Source/LinqToDB/Linq/Builder/TableBuilder.AssociatedTableContext.cs:179-180 | a closing brace not doubled, or an opening brace that starts neither `{{` nor `{0}`, after brace-free text makes the pattern invalid |
| Alias.FormatEscaped | Source/LinqToDB/Linq/Builder/TableBuilder.AssociatedTableContext.cs:179-180 | a text with every brace doubled formats back to the text, whatever the member name |
| Rewrite.FirstMissing | Source/LinqToDB/Linq/Builder/TableBuilder.AssociatedTableContext.cs:134-136 | finds the first placeholder field, in declaration order, whose name the parent table lacks |
| Rewrite.FieldMap | Source/LinqToDB/Linq/Builder/TableBuilder.AssociatedTableContext.cs:133-136 | fails exactly when a placeholder field has no namesake on the parent table, naming the first such field; on success it maps every declared placeholder column, and only those, to the parent column of the same name |
| Rewrite.RewriteExpr | Source/LinqToDB/Linq/Builder/TableBuilder.AssociatedTableContext.cs:138-143 | with a map from fields to fields, a mapped field becomes its image and any other field stays; an expression without fields is unchanged, and the result reads a field exactly when the input does |
| Rewrite.CorrectExpression | Source/LinqToDB/Linq/Builder/TableBuilder.AssociatedTableContext.cs:316-325 | the same for a column expression of the inner query: mapped fields are replaced, other fields stay, a field-free column is unchanged |
| Rewrite.RewriteConditions | Source/LinqToDB/Linq/Builder/TableBuilder.AssociatedTableContext.cs:138-143 | the walk keeps the number and the negation flags of a condition list |
| Rewrite.RewriteSource | Source/LinqToDB/Linq/Builder/TableBuilder.AssociatedTableContext.cs:138-143 | the walk keeps a table source's alias, join count, join kinds and weak flags, keeps a table source's table and enters a nested query |
| Rewrite.RewriteJoin | Source/LinqToDB/Linq/Builder/TableBuilder.AssociatedTableContext.cs:138-143 | the walk keeps a join's kind and weak flag |
| Rewrite.RewriteQuery | Source/LinqToDB/Linq/Builder/TableBuilder.AssociatedTableContext.cs:138-143 | the walk keeps a nested query's number of table sources, their aliases, and the number of filter conditions and columns |
| Rewrite.RewriteIsRename | Source/LinqToDB/Linq/Builder/TableBuilder.AssociatedTableContext.cs:138-143 | substituting through the field map equals the reference rename that points the placeholder table's columns at the parent table |
| Rewrite.RenameRemovesTable | Source/LinqToDB/Linq/Builder/TableBuilder.AssociatedTableContext.cs:138-143 | after the rename no column of the placeholder is read, and reads of other tables are as before |
| Rewrite.RewriteUntouched | Source/LinqToDB/Linq/Builder/TableBuilder.AssociatedTableContext.cs:316-325 | an expression reading no placeholder column is returned unchanged |
| Rewrite.RewriteRemovesPlaceholder | Source/LinqToDB/Linq/Builder/TableBuilder.AssociatedTableContext.cs:316-325 | a cleaned column expression reads no placeholder column |
| Rewrite.RewriteIdempotent | Source/LinqToDB/Linq/Builder/TableBuilder.AssociatedTableContext.cs:316-325 | cleaning a cleaned expression changes nothing |
| Rewrite.RewriteConditionsRemove | Source/LinqToDB/Linq/Builder/TableBuilder.AssociatedTableContext.cs:138-143 | after the walk no condition of a list reads a placeholder column |
| Rewrite.RewriteSourceRemovesPlaceholder | Source/LinqToDB/Linq/Builder/TableBuilder.AssociatedTableContext.cs:138-143 | after the walk no condition anywhere in the owner's join tree reads a placeholder column |
| Rewrite.RewriteQueryRemovesPlaceholder | Source/LinqToDB/Linq/Builder/TableBuilder.AssociatedTableContext.cs:138-143 | after the walk nothing in a nested query reads a placeholder column |
| Rewrite.RewriteJoinRemovesPlaceholder | Source/LinqToDB/Linq/Builder/TableBuilder.AssociatedTableContext.cs:138-143 | the same for one join and the tree below it |
| Rewrite.RewriteConditionsUntouched | Source/LinqToDB/Linq/Builder/TableBuilder.AssociatedTableContext.cs:138-143 | conditions reading no placeholder column are not changed by the walk |
| Rewrite.RewriteSourceUntouched | Source/LinqToDB/Linq/Builder/TableBuilder.AssociatedTableContext.cs:138-143 | a join tree reading no placeholder column is not changed by the walk |
| Rewrite.RewriteQueryUntouched | Source/LinqToDB/Linq/Builder/TableBuilder.AssociatedTableContext.cs:138-143 | a nested query reading no placeholder column is not changed by the walk |
| Rewrite.RewriteJoinUntouched | Source/LinqToDB/Linq/Builder/TableBuilder.AssociatedTableContext.cs:138-143 | the same for one join |
| MergeEngine.FindFirst | Source/LinqToDB/Linq/Builder/TableBuilder.AssociatedTableContext.cs:104-111 | the first index from a start point whose table satisfies the match, or none when no later table does |
| MergeEngine.FindOwner | Source/LinqToDB/Linq/Builder/TableBuilder.AssociatedTableContext.cs:101-114 | an empty association query cannot be inlined; otherwise the owner is the first table structurally equal to the parent's table when there is one, else the first table of the parent's object type, and the lookup fails exactly when no table has that type |
| MergeEngine.PromoteJoins | Source/LinqToDB/Linq/Builder/TableBuilder.AssociatedTableContext.cs:118-129 | every join becomes weak, inner becomes left, cross apply becomes outer apply, every other kind is kept, and count, order, tables and conditions are unchanged |
| MergeEngine.PromoteJoinsIdempotent | Source/LinqToDB/Linq/Builder/TableBuilder.AssociatedTableContext.cs:118-129 | promoting twice is promoting once |
| MergeEngine.PromotedJoinIsOuter | Source/LinqToDB/Linq/Builder/TableBuilder.AssociatedTableContext.cs:118-129 | a promoted inner, left, cross-apply or outer-apply join is an outer join |
| MergeEngine.SpliceOwner | Source/LinqToDB/Linq/Builder/TableBuilder.AssociatedTableContext.cs:131-143 | the owner keeps its alias and its table, or has its nested query walked; its own joins stay in front and the spliced joins follow in order, all rewritten |
| MergeEngine.MergeAssociationQuery | Source/LinqToDB/Linq/Builder/TableBuilder.AssociatedTableContext.cs:101-149 | fails exactly when the owner lookup or the field map fails, with that error; on success the parent's first source is the spliced owner, the other sources are the parent's, then the association query's tables except the owner in order, the filter and select list are unchanged, and the association's join is the first spliced join |
| MergeEngine.MergeSplicesJoins | Source/LinqToDB/Linq/Builder/TableBuilder.AssociatedTableContext.cs:118-145 | the owner's joins are its old joins then the placeholder's joins, with kinds promoted and weak for an optional association; the association's join exists exactly when the placeholder had a join |
| MergeEngine.SplicedKinds | Source/LinqToDB/Linq/Builder/TableBuilder.AssociatedTableContext.cs:118-129 | the joins spliced onto the owner have their kinds promoted, and are weak for an optional association |
| MergeEngine.MergeAppendsOtherTables | Source/LinqToDB/Linq/Builder/TableBuilder.AssociatedTableContext.cs:149 | position by position, the merged table list is the parent's tables followed by the association query's tables except the owner |
| MergeEngine.SpliceRemovesPlaceholder | Source/LinqToDB/Linq/Builder/TableBuilder.AssociatedTableContext.cs:131-143 | the spliced and rewritten owner reads no placeholder column |
| MergeEngine.MergeRemovesPlaceholder | Source/LinqToDB/Linq/Builder/TableBuilder.AssociatedTableContext.cs:131-149 | after the merge the parent's first table source reads no placeholder column; the other tables appended from the association query are not walked, so this says nothing about them |
| MergeEngine.MergeKeepsExistingJoins | Source/LinqToDB/Linq/Builder/TableBuilder.AssociatedTableContext.cs:131-143 | joins the owner already had are unchanged when they read no placeholder column |
| SourceLookup.FindIn | Source/LinqToDB/Linq/Builder/TableBuilder.AssociatedTableContext.cs:155 | the path to the first table source under a table source that reads the table, searching the source itself, then its joins in order, then its nested query; none exactly when no table source there reads it |
| SourceLookup.FindInJoins | Source/LinqToDB/Linq/Builder/TableBuilder.AssociatedTableContext.cs:155 | the first join, from a start point, under which the table is found, with no earlier join containing it; none exactly when no later join does |
| SourceLookup.FindInNested | Source/LinqToDB/Linq/Builder/TableBuilder.AssociatedTableContext.cs:155 | the same for the table sources of a nested query |
| SourceLookup.FindSource | Source/LinqToDB/Linq/Builder/TableBuilder.AssociatedTableContext.cs:155 | the first top-level table source of the parent query under which the parent's table is found, and the path to it there; none exactly when no table source anywhere reads it |
| SourceLookup.AppendAt | Source/LinqToDB/Linq/Builder/TableBuilder.AssociatedTableContext.cs:160 | the table source at the path gains the join after its existing joins; the top source keeps its alias and kind of source |
| SourceLookup.DropLastAt | Source/LinqToDB/Linq/Builder/TableBuilder.AssociatedTableContext.cs:160 | the inverse of the append: the table source at the path loses its last join |
| SourceLookup.DropLastAfterAppend | Source/LinqToDB/Linq/Builder/TableBuilder.AssociatedTableContext.cs:160 | removing the appended join gives back the original table source, so the append changes nothing on the way down to the target: no join kind, weak flag, condition or alias there |
| SourceLookup.AppendAtDetermined | Source/LinqToDB/Linq/Builder/TableBuilder.AssociatedTableContext.cs:160 | a table source whose target ends with the join and that gives back the original once the join is removed is the append itself |
| SourceLookup.AppendAtElsewhere | Source/LinqToDB/Linq/Builder/TableBuilder.AssociatedTableContext.cs:160 | every table source off the way to the target is the same after the append |
| SourceLookup.FindInAfterAppend | Source/LinqToDB/Linq/Builder/TableBuilder.AssociatedTableContext.cs:155-160 | a join appended at the path the lookup found leaves the lookup finding the same path |
| SourceLookup.JoinsAfterAppend | Source/LinqToDB/Linq/Builder/TableBuilder.AssociatedTableContext.cs:155-160 | the same for the search through a table source's joins |
| SourceLookup.NestedAfterAppend | Source/LinqToDB/Linq/Builder/TableBuilder.AssociatedTableContext.cs:155-160 | the same for the search through a nested query's table sources |
| SourceLookup.FindSourceAfterAppend | Source/LinqToDB/Linq/Builder/TableBuilder.AssociatedTableContext.cs:155-160 | the FROM clause's lookup finds the same location after a join is appended there |
| SourceLookup.ChainedParentFound | Source/LinqToDB/Linq/Builder/TableBuilder.AssociatedTableContext.cs:155-160 | for a chain `order.Customer.Address` the customer table, joined under the order table, is found inside that join |
| Composition.AliasOf | Source/LinqToDB/Linq/Builder/TableBuilder.AssociatedTableContext.cs:170-182 | the association's table source with its alias set; it fails exactly when the alias pattern is used and invalid, and the table and joins are kept |
| Composition.AppendJoin | Source/LinqToDB/Linq/Builder/TableBuilder.AssociatedTableContext.cs:156-160 | the join is added at the end of the joins of the table source found, at any depth; removing it gives back the parent query's entry, so the joins and aliases on the way to the target are unchanged, and every other top-level source, every table source off the way to it, the filter and the select list are unchanged |
| Composition.JoinAppendedDetermined | Source/LinqToDB/Linq/Builder/TableBuilder.AssociatedTableContext.cs:156-160 | the frame of an appended join admits exactly one query: the append itself |
| Composition.ChainedJoinKept | Source/LinqToDB/Linq/Builder/TableBuilder.AssociatedTableContext.cs:156-160 | in a chain `order.Customer.Address`, a query where the customer join on the way to the new address join has changed kind or weak flag is not a valid result of the append |
| Composition.AppendJoinKeepsLookup | Source/LinqToDB/Linq/Builder/TableBuilder.AssociatedTableContext.cs:155-160 | after a join is appended where the parent's table was found, the lookup finds it at the same location |
| Composition.FreshCondition | Source/LinqToDB/Linq/Builder/TableBuilder.AssociatedTableContext.cs:162 | the association condition built into an empty list fails exactly when some key is missing, with the first missing key; on success the key equalities lead in key order, the discriminator follows exactly when it is added, the regular count covers exactly those, and the extra predicate's conditions follow |
| Composition.AttachInlineJoin | Source/LinqToDB/Linq/Builder/TableBuilder.AssociatedTableContext.cs:154-164 | with no query method, fails when the parent's table is not in the parent query; otherwise fails exactly when a key is missing (with the key error) or the alias pattern is invalid; on success exactly one weak join is added to the table source reading the parent's table, wherever it sits: left for an optional association, inner otherwise, to the association's aliased table, carrying the association condition; every other table source, the filter and the select list are unchanged, and the parent's table is still found at the same place |
| Composition.BuildSubQuery | Source/LinqToDB/Linq/Builder/TableBuilder.AssociatedTableContext.cs:239-272 | a query method's query is adopted with its first table aliased and no regular conditions; it fails when it has no table and otherwise exactly when the alias pattern is invalid; without a query method, the association's aliased table is the only source, the filter is the association condition, and it fails exactly when a key is missing (with the key error) or the alias pattern is invalid |
| Composition.InlineAssociationQuery | Source/LinqToDB/Linq/Builder/TableBuilder.AssociatedTableContext.cs:83-153 | the merge result, with only the association join's table alias set; the merge's error on failure, and an invalid alias pattern fails exactly when there is an association join to alias |
| Composition.NewAssociatedTable | Source/LinqToDB/Linq/Builder/TableBuilder.AssociatedTableContext.cs:41-168 | a collection type marks the context as a list of the element type; a subquery has no parent join and its query and regular count are the subquery path's; an inlined query method gives the merged query with the association join aliased, the merge's field map and no regular conditions; a plain association gives the parent query with one weak join attached at the parent's table source, kind following the optional flag, carrying the association condition and its regular count; without a query method, the plain and subquery paths fail exactly for a missing parent source (plain path only), a missing key or an invalid alias pattern |
| Composition.ConvertToParentIndexStep | Source/LinqToDB/Linq/Builder/TableBuilder.AssociatedTableContext.cs:327-336 | a delegated context appends the inner column at the index to its select list, cleaned through the field map, and passes on its new position; an index outside the inner list fails, and without a field map a column reading a field fails while a field-free one is appended unchanged; a direct context passes the index on unchanged |
| Composition.ConvertToParentIndexCleansColumn | Source/LinqToDB/Linq/Builder/TableBuilder.AssociatedTableContext.cs:316-336 | the column handed to the parent is the inner column with the placeholder renamed to the parent table, reading no placeholder column |
| NullGuard.IsLeftChain | Source/LinqToDB/Linq/Builder/TableBuilder.AssociatedTableContext.cs:348-358 | walking up the association chain fails exactly when an association without a join comes before any outer join, and reports true exactly when an outer join comes before any missing join |
| NullGuard.ProcessExpression | Source/LinqToDB/Linq/Builder/TableBuilder.AssociatedTableContext.cs:346-382 | an association not reached through an outer join materialises as before; otherwise the object reads as null exactly when every key column is NULL; an outer join with no key columns fails |
| LoadWithChains.FirstMatch | Source/LinqToDB/Linq/Builder/TableBuilder.AssociatedTableContext.cs:392-399 | the first parent load-with entry for the member, or none when no entry is for it |
| LoadWithChains.GetLoadWith | Source/LinqToDB/Linq/Builder/TableBuilder.AssociatedTableContext.cs:384-404 | already known chains are returned; else the continuation of the first parent entry for this association's member; none when the parent has no chains or no entry for the member |
| LoadWithChains.LoadWithPath | Source/LinqToDB/Linq/Builder/TableBuilder.AssociatedTableContext.cs:445-462 | the eager-load lambda body is the chain's member accesses from the row parameter, with an element step after each collection-typed member that is followed by another |
| LoadWithChains.CountItemsAppend | Source/LinqToDB/Linq/Builder/TableBuilder.AssociatedTableContext.cs:452-460 | element steps of a concatenated path add up |
| LoadWithChains.PathLength | Source/LinqToDB/Linq/Builder/TableBuilder.AssociatedTableContext.cs:452-460 | a chain of n members gives a path of n accesses plus one element step per collection-typed member that is not last |
| Collection.KeyTest | Source/LinqToDB/Linq/Builder/TableBuilder.AssociatedTableContext.cs:473-476 | a key test reads only the filtered row and the converted parent object |
| Collection.KeyFilter | Source/LinqToDB/Linq/Builder/TableBuilder.AssociatedTableContext.cs:471-479 | the conjoined key tests read only the filtered row and the converted parent object |
| Collection.PredicateBody | Source/LinqToDB/Linq/Builder/TableBuilder.AssociatedTableContext.cs:481-490 | the extra predicate's own parameters are gone after substitution, and a predicate over them becomes one over the parent object and the row |
| Collection.FilterOf | Source/LinqToDB/Linq/Builder/TableBuilder.AssociatedTableContext.cs:466-494 | the per-row filter fails exactly when there are neither keys nor an extra predicate, and never mentions the predicate's own parameters |
| Collection.BuildFilter | Source/LinqToDB/Linq/Builder/TableBuilder.AssociatedTableContext.cs:466-492 | the key-by-key loop builds exactly the per-row filter |
| Collection.KeyTestEval | Source/LinqToDB/Linq/Builder/TableBuilder.AssociatedTableContext.cs:473-476 | a key test holds exactly when the row's other key equals the parent's this key |
| Collection.KeyFilterEval | Source/LinqToDB/Linq/Builder/TableBuilder.AssociatedTableContext.cs:471-479 | the key filter over the first n pairs holds exactly when those pairs agree |
| Collection.FilterSelectsMatchingRows | Source/LinqToDB/Linq/Builder/TableBuilder.AssociatedTableContext.cs:466-494 | without an extra predicate the filter holds exactly for rows whose keys agree with the parent's; with one, disagreeing rows are rejected and agreeing rows are decided by the predicate |
| Collection.Selected | Source/LinqToDB/Linq/Builder/TableBuilder.AssociatedTableContext.cs:494 | a row is kept exactly when it is a row of the input that the filter accepts, and no more rows are kept than given |
| Collection.SelectedAppend | Source/LinqToDB/Linq/Builder/TableBuilder.AssociatedTableContext.cs:494 | the rows kept from a concatenation are those kept from the first part followed by those kept from the second |
| Collection.SelectedAt | Source/LinqToDB/Linq/Builder/TableBuilder.AssociatedTableContext.cs:494 | an accepted row is kept in its place: after the rows kept from before it and before the rows kept from after it |
| Collection.FirstOrderLines | Source/LinqToDB/Linq/Builder/TableBuilder.AssociatedTableContext.cs:466-494 | of three order lines, order 1 receives exactly its two lines, in order |
| Collection.SecondOrderLines | Source/LinqToDB/Linq/Builder/TableBuilder.AssociatedTableContext.cs:466-494 | of the same lines, order 2 receives exactly its one line |
| Collection.ChooseContainer | Source/LinqToDB/Linq/Builder/TableBuilder.AssociatedTableContext.cs:507-525 | the conversion chosen is the first one the member type supports in the order array, list, constructor, registered conversion; the choice fails exactly when none is supported, naming the member type and the object type |
| Collection.QueryMethodBody | Source/LinqToDB/Linq/Builder/TableBuilder.AssociatedTableContext.cs:427-436 | the query method's own parameters are gone, replaced by the converted parent object and the per-row data context |
| Collection.GetSubquery | Source/LinqToDB/Linq/Builder/TableBuilder.AssociatedTableContext.cs:417-526 | the per-row query is the rewritten query method, or the element table with one load-with per chain filtered by the per-row filter; it fails only for a missing filter or container, and a well-scoped query reads only the per-row lambda's parameters |
| Collection.BuildQuery | Source/LinqToDB/Linq/Builder/TableBuilder.AssociatedTableContext.cs:550-566 | a single-object association never fails here and materialises directly or through its delegate; a collection fails with the multiple-query error naming the configuration switch when multiple queries are disabled, and otherwise gets the per-row query |
| LinqModel.SubstRemoves | Source/LinqToDB/Linq/Builder/TableBuilder.AssociatedTableContext.cs:434-435 | substituting a parameter by expressions that do not mention it removes it |
| LinqModel.SubstMentions | Source/LinqToDB/Linq/Builder/TableBuilder.AssociatedTableContext.cs:434-435 | after substitution a parameter not substituted is mentioned only where the original mentions it or where a substituted parameter's replacement brings it in |
| LinqModel.SubstUntouched | Source/LinqToDB/Linq/Builder/TableBuilder.AssociatedTableContext.cs:434-435 | an expression mentioning none of the substituted parameters is unchanged |
| LinqModel.ClosedMentions | Source/LinqToDB/Linq/Builder/TableBuilder.AssociatedTableContext.cs:434-435 | an expression closed over some parameters mentions no other |
| LinqModel.ClosedWiden | Source/LinqToDB/Linq/Builder/TableBuilder.AssociatedTableContext.cs:434-435 | closed over some parameters implies closed over more |
| LinqModel.SubstClosed | Source/LinqToDB/Linq/Builder/TableBuilder.AssociatedTableContext.cs:434-435 | replacing every parameter of a closed lambda body by expressions closed over a set gives an expression closed over that set |

## Left out

- The building of LINQ expression trees and all reflection (member types, generic arguments, constructors, `Activator`) are left out. The facts they yield are inputs: a member's enumerability, element type and container shape.
- The builder's collaborators are parameters, because their code is not part of this model. They are `BuildSequence`, `GetObjectType`, `MakeIsPredicate`, `builder.Convert`, `BuildSearchCondition`, the base class's `ConvertToIndex`, `ConvertToParentIndex` and `BuildQuery`, and the mapping schema's conversion lookup.
- `DefaultIfEmptyContext` wrapping for optional query-method associations is left out: it only changes the inner context, not the merge.
- Compiling the per-row query and `ExecuteSubQuery` are I/O and are left out. The per-row query is modelled as the expression that would be compiled.
- The forwarding overrides (`BuildQuery<T>`, `ConvertToSql`, `ConvertToIndex`, `BuildExpression`, `GetField`) are left out: they only delegate to the inner context.
- `GetAssociationQueryExpression` and `GetAssociationQueryExpressionAsSubQuery` are left out: they only build expression trees.
- The duplicate check of the select list's `Add` is left out; a cleaned column is always appended.
- `QueryHelper.IsEqualTables` is not part of this model. Structural equality is modelled as equal table name and object type.
- Alias.FormatFirstItem: composite formatting is modelled with one argument. Escaped braces, the `{0}` item and invalid braces are modelled. An item with an alignment or a format string (`{0,5}`, `{0:x}`) and an index written with extra zeros (`{00}`) are valid in .NET but are reported as a format failure here, as are indexes other than 0, which .NET also rejects.
- Alias.FormatAlias: whitespace inside a format item is not modelled; such an item is reported as a format failure.
- `ExpressionBuilder.Equal` is modelled as plain equality of the two members.
- The grouping of the parent's load-with chains by first member is not part of this model. The grouped entries are an input.
- Alias.SetTableAlias: the empty string stands for a missing alias or pattern, as `IsNullOrEmpty` treats both alike.
- SourceLookup.FindSource: `SqlFromClause` and its table indexer are not part of this model. The lookup is modelled as a depth-first search: a table source, then its joins in order, then its nested query.
- Composition.AttachInlineJoin: when the parent's table is in no table source of the FROM clause, the source ends in an exception, the indexer's own or a null dereference; the model reports it as the error `ParentSourceNotFound`.
- MergeEngine.MergeAssociationQuery: the source takes the parent query's first table unchecked. The model requires the parent query to have one.
- JoinCondition.BuildAssociationCondition: an association's key lists have equal length, so the model requires the this-key list to be no longer than the other-key list.
- Composition.NewAssociatedTable: the join-less left flag passed to `BuildSubQuery` is unused in the source, so it is not modelled.
- NullGuard.ProcessExpression: the translation of a key to a row-reader column is a pure function of the key index. The translation's own select-list additions are not modelled, and neither are its failures: the `ConvertToParentIndex` call at line 368 can fail with a column index out of range or a missing field map (as `Composition.ConvertToParentIndexStep` shows), but the total function passed in here cannot.
- Collection.GetSubquery: the rewrite of the query method body is stated for well-scoped lambdas, whose bodies mention only their own two parameters.
- The ordering of the ambiguous owner lookup is the code's: when several tables match structurally, the first is taken.
- With zero keys, the join condition is just the discriminator and the extra predicate. The per-row filter with neither keys nor a predicate fails: an empty lambda body cannot be built.
- LoadWithChains.FirstMatch: members are matched by name and declaring type. `MemberInfo.EqualsTo` is not part of this model; it may also match a member declared on a base type with the same member reached through a derived type, which this model does not.
- Collection.KeyTest: the member access on each key is built unconditionally. `Expression.PropertyOrField` throws for a key name that is not a member of the type; that exception is not modelled. The join condition has already checked the keys against the mapped fields by then.

=== FILE: alias.dfy ===
/** The alias an association's table source gets: the association's own
    alias, else the configured association alias pattern filled in with the
    navigation member's name. */
module Alias {
  import opened Wrappers
  import opened SqlModel

  /** `s` in front of a formatted result; a failure stays the failure. */
  function Prepend(s: string, r: Result<string, Error>): Result<string, Error> {
    match r
    case Success(v) => Success(s + v)
    case Failure(e) => Failure(e)
  }

  predicate IsBrace(c: char) {
    c == '{' || c == '}'
  }

  predicate BraceFree(s: string) {
    forall k :: 0 <= k < |s| ==> !IsBrace(s[k])
  }

  /** Composite formatting with a single argument: `{0}` becomes `arg`,
      `{{` and `}}` each stand for one brace, any other brace is a format
      error, and every other character is copied. */
  function FormatAlias(pattern: string, arg: string): (r: Result<string, Error>)
    decreases |pattern|
    ensures r.Failure? ==> r.error == InvalidAliasFormat && !BraceFree(pattern)
  {
    if |pattern| == 0 then Success("")
    else if |pattern| >= 2 && (pattern[..2] == "{{" || pattern[..2] == "}}") then
      Prepend([pattern[0]], FormatAlias(pattern[2..], arg))
    else if |pattern| >= 3 && pattern[..3] == "{0}" then Prepend(arg, FormatAlias(pattern[3..], arg))
    else if IsBrace(pattern[0]) then Failure(InvalidAliasFormat)
    else Prepend([pattern[0]], FormatAlias(pattern[1..], arg))
  }

  lemma BraceFreeTail(s: string)
    requires |s| > 0 && BraceFree(s)
    ensures !IsBrace(s[0]) && BraceFree(s[1..])
  {
    assert forall k :: 0 <= k < |s[1..]| ==> s[1..][k] == s[k + 1];
  }

  /** A pattern without braces is its own result. */
  lemma {:induction false} FormatWithoutItems(pattern: string, arg: string)
    requires BraceFree(pattern)
    ensures FormatAlias(pattern, arg) == Success(pattern)
    decreases |pattern|
  {
    if |pattern| > 0 {
      BraceFreeTail(pattern);
      assert pattern[..1] == [pattern[0]];
      FormatWithoutItems(pattern[1..], arg);
      assert [pattern[0]] + pattern[1..] == pattern;
    }
  }

  /** The first `{0}` after brace-free text is where the argument lands. */
  lemma {:induction false} FormatFirstItem(prefix: string, rest: string, arg: string)
    requires BraceFree(prefix)
    ensures FormatAlias(prefix + "{0}" + rest, arg) == Prepend(prefix + arg, FormatAlias(rest, arg))
    decreases |prefix|
  {
    var p := prefix + "{0}" + rest;
    if |prefix| == 0 {
      assert p[..2][1] == '0';
      assert p[..3] == "{0}";
      assert p[3..] == rest;
      assert prefix + arg == arg;
    } else {
      BraceFreeTail(prefix);
      assert p[0] == prefix[0] && p[..2][0] == p[0] && p[..3][0] == p[0];
      assert p[1..] == prefix[1..] + "{0}" + rest;
      FormatFirstItem(prefix[1..], rest, arg);
      assert [prefix[0]] + (prefix[1..] + arg) == prefix + arg;
      match FormatAlias(rest, arg)
      case Success(v) =>
        assert [prefix[0]] + (prefix[1..] + arg + v) == prefix + arg + v;
      case Failure(_) =>
    }
  }

  /** A pattern starting with an ordinary character copies it. */
  lemma FormatPlainFirst(p: string, arg: string)
    requires |p| > 0 && !IsBrace(p[0])
    ensures FormatAlias(p, arg) == Prepend([p[0]], FormatAlias(p[1..], arg))
  {
    if |p| >= 2 {
      assert p[..2][0] == p[0];
    }
    if |p| >= 3 {
      assert p[..3][0] == p[0];
    }
  }

  /** A pattern starting with a stray brace is invalid. */
  lemma FormatStrayFirst(brace: char, rest: string, arg: string)
    requires IsBrace(brace)
    requires brace == '}' ==> |rest| == 0 || rest[0] != '}'
    requires brace == '{' ==> (|rest| == 0 || rest[0] != '{') && (|rest| < 2 || rest[..2] != "0}")
    ensures FormatAlias([brace] + rest, arg) == Failure(InvalidAliasFormat)
  {
    var p := [brace] + rest;
    if |p| >= 2 {
      assert p[..2] == [brace, rest[0]];
    }
    if |p| >= 3 {
      assert p[..3] == [brace] + rest[..2];
      assert p[..3][1..] == rest[..2];
      assert p[..3] != "{0}" by {
        if brace == '{' {
          assert "{0}"[1..] == "0}";
        }
      }
    }
  }

  /** A closing brace after brace-free text that does not start `}}` is a
      format error, and so is an opening brace that starts neither `{{` nor
      `{0}`. */
  lemma {:induction false} FormatRejectsStrayBrace(prefix: string, brace: char, rest: string, arg: string)
    requires BraceFree(prefix) && IsBrace(brace)
    requires brace == '}' ==> |rest| == 0 || rest[0] != '}'
    requires brace == '{' ==> (|rest| == 0 || rest[0] != '{') && (|rest| < 2 || rest[..2] != "0}")
    ensures FormatAlias(prefix + [brace] + rest, arg) == Failure(InvalidAliasFormat)
    decreases |prefix|
  {
    var p := prefix + [brace] + rest;
    if |prefix| == 0 {
      assert p == [brace] + rest;
      FormatStrayFirst(brace, rest, arg);
    } else {
      BraceFreeTail(prefix);
      assert p[0] == prefix[0];
      assert p[1..] == prefix[1..] + [brace] + rest;
      FormatPlainFirst(p, arg);
      FormatRejectsStrayBrace(prefix[1..], brace, rest, arg);
    }
  }

  /** Every brace doubled: the text that formats to `s`. */
  function EscapeBraces(s: string): (r: string)
    ensures |r| >= |s|
  {
    if |s| == 0 then ""
    else (if IsBrace(s[0]) then [s[0], s[0]] else [s[0]]) + EscapeBraces(s[1..])
  }

  /** Formatting undoes escaping, whatever the argument. */
  lemma {:induction false} FormatEscaped(s: string, arg: string)
    ensures FormatAlias(EscapeBraces(s), arg) == Success(s)
    decreases |s|
  {
    if |s| > 0 {
      var e := EscapeBraces(s);
      FormatEscaped(s[1..], arg);
      if IsBrace(s[0]) {
        assert e[..2] == [s[0], s[0]];
        assert e[2..] == EscapeBraces(s[1..]);
      } else {
        assert e[0] == s[0];
        if |e| >= 2 {
          assert e[..2][0] == s[0];
        }
        if |e| >= 3 {
          assert e[..3][0] == s[0];
        }
        assert e[1..] == EscapeBraces(s[1..]);
      }
      assert [s[0]] + s[1..] == s;
    }
  }

  /** Sets the alias of `table` if there is one; nothing else changes. The
      empty string stands for a missing alias or pattern. Filling in the
      pattern can fail, as the formatting call can. */
  function SetTableAlias(aliasName: string, pattern: string, memberName: string, table: Option<TableSource>)
    : (r: Result<Option<TableSource>, Error>)
    ensures table.None? ==> r == Success(None)
    ensures r.Failure? <==> table.Some? && aliasName == "" && pattern != "" && FormatAlias(pattern, memberName).Failure?
    ensures r.Failure? ==> r.error == InvalidAliasFormat
    ensures table.Some? && r.Success? ==>
      r.value.Some? && r.value.value.source == table.value.source && r.value.value.joins == table.value.joins
    ensures table.Some? && aliasName != "" ==> r.value.value.alias == aliasName
    ensures table.Some? && aliasName == "" && pattern != "" && r.Success? ==>
      FormatAlias(pattern, memberName) == Success(r.value.value.alias)
    ensures aliasName == "" && pattern == "" ==> r == Success(table)
  {
    match table
    case None => Success(None)
    case Some(t) =>
      if aliasName != "" then Success(Some(t.(alias := aliasName)))
      else if pattern != "" then
        match FormatAlias(pattern, memberName)
        case Success(a) => Success(Some(t.(alias := a)))
        case Failure(_) => Failure(InvalidAliasFormat)
      else Success(table)
  }
}

=== FILE: collection.dfy ===
/** The collection fallback: a collection-typed association cannot be a
    join of the parent query, so each parent object runs a query of its
    own, filtered by the association keys, and its result is converted to
    the navigation member's container type. */
module Collection {
  import opened Wrappers
  import opened SqlModel
  import opened LinqModel
  import opened LoadWithChains
  import opened Composition

  // ---- the per-row filter -------------------------------------------------------

  /** The parent object as seen by the per-row query: the untyped parent
      parameter converted to the parent's type. */
  function ParentOwner(parentType: TypeTag): LExpr {
    Convert(Parameter(ParentObject), parentType)
  }

  /** The `i`-th key test: the row's other-key member equals the parent's
      this-key member. */
  function KeyTest(parentType: TypeTag, thisKey: seq<string>, otherKey: seq<string>, i: nat): (r: LExpr)
    requires i < |thisKey| <= |otherKey|
    ensures Closed(r, {ParentObject, WhereRow})
  {
    var row := Member(Parameter(WhereRow), otherKey[i]);
    var owner := Member(ParentOwner(parentType), thisKey[i]);
    assert Closed(row, {ParentObject, WhereRow});
    assert Closed(ParentOwner(parentType), {ParentObject, WhereRow});
    Equal(row, owner)
  }

  /** The key tests of the first `n` key pairs, conjoined left to right. */
  function KeyFilter(parentType: TypeTag, thisKey: seq<string>, otherKey: seq<string>, n: nat): (r: LExpr)
    requires 1 <= n <= |thisKey| <= |otherKey|
    ensures Closed(r, {ParentObject, WhereRow})
  {
    if n == 1 then KeyTest(parentType, thisKey, otherKey, 0)
    else AndAlso(KeyFilter(parentType, thisKey, otherKey, n - 1), KeyTest(parentType, thisKey, otherKey, n - 1))
  }

  /** The extra predicate's owner and child parameters become the converted
      parent and the filtered row. */
  function PredicateBody(parentType: TypeTag, body: LExpr): (r: LExpr)
    ensures !Mentions(r, PredicateOwner) && !Mentions(r, PredicateChild)
    ensures Closed(body, {PredicateOwner, PredicateChild}) ==> Closed(r, {ParentObject, WhereRow})
  {
    var s := map[PredicateOwner := ParentOwner(parentType), PredicateChild := Parameter(WhereRow)];
    SubstRemoves(body, s, PredicateOwner);
    SubstRemoves(body, s, PredicateChild);
    assert s.Keys == {PredicateOwner, PredicateChild};
    assert Closed(s[PredicateOwner], {ParentObject, WhereRow}) && Closed(s[PredicateChild], {ParentObject, WhereRow});
    if Closed(body, s.Keys) then SubstClosed(body, s, {ParentObject, WhereRow}); Subst(body, s)
    else Subst(body, s)
  }

  /** The per-row filter: the key tests, then the extra predicate. With
      neither there is no filter body to build a lambda from. */
  function FilterOf(parentType: TypeTag, thisKey: seq<string>, otherKey: seq<string>, pred: Option<LExpr>)
    : (r: Result<LExpr, Error>)
    requires |thisKey| <= |otherKey|
    ensures r.Failure? <==> |thisKey| == 0 && pred.None?
    ensures r.Failure? ==> r.error == EmptyFilter
    ensures r.Success? ==> !Mentions(r.value, PredicateOwner) && !Mentions(r.value, PredicateChild)
    ensures r.Success? && (pred.Some? ==> Closed(pred.value, {PredicateOwner, PredicateChild})) ==>
      Closed(r.value, {ParentObject, WhereRow})
  {
    if |thisKey| == 0 then
      if pred.None? then Failure(EmptyFilter) else Success(PredicateBody(parentType, pred.value))
    else
      var keys := KeyFilter(parentType, thisKey, otherKey, |thisKey|);
      ClosedMentions(keys, {ParentObject, WhereRow}, PredicateOwner);
      ClosedMentions(keys, {ParentObject, WhereRow}, PredicateChild);
      if pred.None? then Success(keys) else Success(AndAlso(keys, PredicateBody(parentType, pred.value)))
  }

  /** Builds the filter the way the per-row query does, one key pair at a
      time. */
  method BuildFilter(parentType: TypeTag, thisKey: seq<string>, otherKey: seq<string>, pred: Option<LExpr>)
    returns (r: Result<LExpr, Error>)
    requires |thisKey| <= |otherKey|
    ensures r == FilterOf(parentType, thisKey, otherKey, pred)
  {
    var expr: Option<LExpr> := None;
    var i := 0;
    while i < |thisKey|
      invariant 0 <= i <= |thisKey|
      invariant expr == if i == 0 then None else Some(KeyFilter(parentType, thisKey, otherKey, i))
    {
      var ex := KeyTest(parentType, thisKey, otherKey, i);
      expr := if expr.None? then Some(ex) else Some(AndAlso(expr.value, ex));
      i := i + 1;
    }
    if pred.Some? {
      var body := PredicateBody(parentType, pred.value);
      expr := if expr.None? then Some(body) else Some(AndAlso(expr.value, body));
    }
    if expr.None? {
      return Failure(EmptyFilter);
    }
    r := Success(expr.value);
  }

  // ---- what the filter selects ----------------------------------------------------

  /** Every key member is present on the parent object and on the row. */
  predicate KeysPresent(thisKey: seq<string>, otherKey: seq<string>, parent: map<string, int>, row: map<string, int>) {
    && |thisKey| <= |otherKey|
    && (forall i :: 0 <= i < |thisKey| ==> thisKey[i] in parent && otherKey[i] in row)
  }

  /** The row belongs to the parent: every key pair agrees. */
  predicate KeysMatch(thisKey: seq<string>, otherKey: seq<string>, parent: map<string, int>, row: map<string, int>)
    requires KeysPresent(thisKey, otherKey, parent, row)
  {
    forall i :: 0 <= i < |thisKey| ==> row[otherKey[i]] == parent[thisKey[i]]
  }

  lemma KeyTestEval(parentType: TypeTag, thisKey: seq<string>, otherKey: seq<string>, i: nat,
                    parent: map<string, int>, row: map<string, int>)
    requires i < |thisKey|
    requires KeysPresent(thisKey, otherKey, parent, row)
    ensures Eval(KeyTest(parentType, thisKey, otherKey, i), parent, row) == Some(BoolV(row[otherKey[i]] == parent[thisKey[i]]))
  {
    var l := Member(Parameter(WhereRow), otherKey[i]);
    var r := Member(ParentOwner(parentType), thisKey[i]);
    assert Eval(l, parent, row) == Some(IntV(row[otherKey[i]]));
    assert Eval(r, parent, row) == Some(IntV(parent[thisKey[i]]));
  }

  /** The key filter over the first `n` pairs holds exactly when those pairs
      agree. */
  lemma {:induction false} KeyFilterEval(parentType: TypeTag, thisKey: seq<string>, otherKey: seq<string>, n: nat,
                                         parent: map<string, int>, row: map<string, int>)
    requires 1 <= n <= |thisKey|
    requires KeysPresent(thisKey, otherKey, parent, row)
    ensures Eval(KeyFilter(parentType, thisKey, otherKey, n), parent, row)
            == Some(BoolV(forall i :: 0 <= i < n ==> row[otherKey[i]] == parent[thisKey[i]]))
  {
    KeyTestEval(parentType, thisKey, otherKey, n - 1, parent, row);
    if n > 1 {
      KeyFilterEval(parentType, thisKey, otherKey, n - 1, parent, row);
    }
  }

  /** Without an extra predicate the filter holds exactly for the rows whose
      keys agree with the parent's. With one, a row whose keys disagree is
      rejected, and a row whose keys agree is decided by the predicate. */
  lemma FilterSelectsMatchingRows(parentType: TypeTag, thisKey: seq<string>, otherKey: seq<string>, pred: Option<LExpr>,
                                  parent: map<string, int>, row: map<string, int>)
    requires KeysPresent(thisKey, otherKey, parent, row)
    requires |thisKey| > 0 || pred.Some?
    ensures var f := FilterOf(parentType, thisKey, otherKey, pred).value;
      && (pred.None? ==> Eval(f, parent, row) == Some(BoolV(KeysMatch(thisKey, otherKey, parent, row))))
      && (pred.Some? && |thisKey| > 0 && !KeysMatch(thisKey, otherKey, parent, row) ==> Eval(f, parent, row) == Some(BoolV(false)))
      && (pred.Some? && KeysMatch(thisKey, otherKey, parent, row) ==>
            var b := Eval(PredicateBody(parentType, pred.value), parent, row);
            b.None? || b.value.BoolV? ==> Eval(f, parent, row) == b)
  {
    if |thisKey| > 0 {
      KeyFilterEval(parentType, thisKey, otherKey, |thisKey|, parent, row);
    }
  }

  /** The filter accepts the row. */
  predicate Accepts(filter: LExpr, parent: map<string, int>, row: map<string, int>) {
    Eval(filter, parent, row) == Some(BoolV(true))
  }

  /** `kept` holds the accepted rows of `rows` and nothing else. */
  ghost predicate KeepsExactlyAccepted(filter: LExpr, parent: map<string, int>, rows: seq<map<string, int>>, kept: seq<map<string, int>>) {
    forall x :: x in kept <==> x in rows && Accepts(filter, parent, x)
  }

  /** The rows of `rows` the filter accepts for `parent`, in order. */
  function Selected(filter: LExpr, parent: map<string, int>, rows: seq<map<string, int>>): (r: seq<map<string, int>>)
    ensures |r| <= |rows|
    ensures KeepsExactlyAccepted(filter, parent, rows, r)
  {
    if |rows| == 0 then []
    else (if Accepts(filter, parent, rows[0]) then [rows[0]] else []) + Selected(filter, parent, rows[1..])
  }

  /** Filtering keeps the input order: the rows kept from a concatenation
      are those kept from the first part followed by those kept from the
      second. */
  lemma {:induction false} SelectedAppend(filter: LExpr, parent: map<string, int>, a: seq<map<string, int>>, b: seq<map<string, int>>)
    ensures Selected(filter, parent, a + b) == Selected(filter, parent, a) + Selected(filter, parent, b)
  {
    if |a| == 0 {
      assert a + b == b;
    } else {
      var h := if Accepts(filter, parent, a[0]) then [a[0]] else [];
      assert (a + b)[1..] == a[1..] + b;
      assert Selected(filter, parent, a + b) == h + Selected(filter, parent, a[1..] + b);
      SelectedAppend(filter, parent, a[1..], b);
      ConcatAssoc(h, Selected(filter, parent, a[1..]), Selected(filter, parent, b));
    }
  }

  /** Every accepted row is kept where it stood: after the rows kept from
      before it and before the rows kept from after it. */
  lemma SelectedAt(filter: LExpr, parent: map<string, int>, rows: seq<map<string, int>>, i: nat)
    requires i < |rows| && Accepts(filter, parent, rows[i])
    ensures Selected(filter, parent, rows) ==
      Selected(filter, parent, rows[..i]) + [rows[i]] + Selected(filter, parent, rows[i + 1..])
  {
    var tail := [rows[i]] + rows[i + 1..];
    assert rows == rows[..i] + tail;
    SelectedAppend(filter, parent, rows[..i], tail);
    assert tail[0] == rows[i] && tail[1..] == rows[i + 1..];
    ConcatAssoc(Selected(filter, parent, rows[..i]), [rows[i]], Selected(filter, parent, rows[i + 1..]));
  }

  lemma ConcatAssoc<T>(x: seq<T>, y: seq<T>, z: seq<T>)
    ensures x + (y + z) == (x + y) + z
  {
  }

  /** The lines of the orders scenario: order, quantity. */
  function OrderLines(): seq<map<string, int>> {
    [map["OrderId" := 1, "Qty" := 5], map["OrderId" := 1, "Qty" := 7], map["OrderId" := 2, "Qty" := 9]]
  }

  /** Orders with lines: the filter of `Order.Id = OrderLine.OrderId`
      gives order 1 its first two lines. */
  lemma FirstOrderLines()
    ensures Selected(FilterOf("Order", ["Id"], ["OrderId"], None).value, map["Id" := 1], OrderLines())
            == OrderLines()[..2]
  {
    var lines := OrderLines();
    var one := map["Id" := 1];
    forall k | 0 <= k < 3
      ensures KeysPresent(["Id"], ["OrderId"], one, lines[k])
    {
    }
    FilterSelectsMatchingRows("Order", ["Id"], ["OrderId"], None, one, lines[0]);
    FilterSelectsMatchingRows("Order", ["Id"], ["OrderId"], None, one, lines[1]);
    FilterSelectsMatchingRows("Order", ["Id"], ["OrderId"], None, one, lines[2]);
    assert lines[1..][1..] == [lines[2]];
  }

  /** ... and order 2 the third. */
  lemma SecondOrderLines()
    ensures Selected(FilterOf("Order", ["Id"], ["OrderId"], None).value, map["Id" := 2], OrderLines())
            == OrderLines()[2..]
  {
    var lines := OrderLines();
    var two := map["Id" := 2];
    forall k | 0 <= k < 3
      ensures KeysPresent(["Id"], ["OrderId"], two, lines[k])
    {
    }
    FilterSelectsMatchingRows("Order", ["Id"], ["OrderId"], None, two, lines[0]);
    FilterSelectsMatchingRows("Order", ["Id"], ["OrderId"], None, two, lines[1]);
    FilterSelectsMatchingRows("Order", ["Id"], ["OrderId"], None, two, lines[2]);
    assert lines[1..][1..] == [lines[2]];
    assert |lines[1..][1..][1..]| == 0;
  }

  // ---- the container ---------------------------------------------------------------

  /** What the navigation member's declared type admits: being exactly an
      array of the element type, being assignable from a list of it, having
      a constructor taking a sequence of it, and having a conversion from a
      sequence of it registered in the mapping schema. */
  datatype ContainerShape = ContainerShape(isArrayOfElement: bool, acceptsList: bool, hasSequenceCtor: bool, hasConversion: bool)

  datatype Conversion = ToArray | ToList | Construct | RegisteredConversion

  predicate Supports(shape: ContainerShape, c: Conversion) {
    match c
    case ToArray => shape.isArrayOfElement
    case ToList => shape.acceptsList
    case Construct => shape.hasSequenceCtor
    case RegisteredConversion => shape.hasConversion
  }

  /** The order in which the conversions are tried. */
  function Precedence(c: Conversion): nat {
    match c
    case ToArray => 0
    case ToList => 1
    case Construct => 2
    case RegisteredConversion => 3
  }

  /** The conversion of the per-row result to the member's type: the first
      one the type supports, in order of precedence. */
  function ChooseContainer(memberType: TypeTag, objectType: TypeTag, shape: ContainerShape): (r: Result<Conversion, Error>)
    ensures r.Success? ==> Supports(shape, r.value)
    ensures r.Success? ==> forall c :: Precedence(c) < Precedence(r.value) ==> !Supports(shape, c)
    ensures r.Failure? <==> forall c :: !Supports(shape, c)
    ensures r.Failure? ==> r.error == ExpectedConstructor(memberType, objectType)
  {
    if shape.isArrayOfElement then assert Supports(shape, ToArray); Success(ToArray)
    else if shape.acceptsList then assert Supports(shape, ToList); Success(ToList)
    else if shape.hasSequenceCtor then assert Supports(shape, Construct); Success(Construct)
    else if shape.hasConversion then assert Supports(shape, RegisteredConversion); Success(RegisteredConversion)
    else
      assert !Supports(shape, ToArray) && !Supports(shape, ToList) && !Supports(shape, Construct);
      Failure(ExpectedConstructor(memberType, objectType))
  }

  // ---- the per-row query --------------------------------------------------------

  /** The load-with paths applied to a query, innermost first. */
  function LoadWithPaths(e: LExpr): seq<LExpr> {
    match e
    case LoadWith(src, path) => LoadWithPaths(src) + [path]
    case _ => []
  }

  /** The query under all load-with applications. */
  function LoadWithBase(e: LExpr): LExpr {
    match e
    case LoadWith(src, _) => LoadWithBase(src)
    case _ => e
  }

  /** Everything the per-row query is built from besides the association:
      the parent's and the element's types, the table context's object
      type, the bodies of the association's query method and extra
      predicate (if present), its load-with chains and the member type's
      container shape. */
  datatype SubqueryInputs = SubqueryInputs(
    parentType: TypeTag,
    elementType: TypeTag,
    objectType: TypeTag,
    queryMethod: Option<LExpr>,
    extraPredicate: Option<LExpr>,
    loadWith: Option<seq<seq<MemberInfo>>>,
    shape: ContainerShape)

  /** The query method's owner and data-context parameters become the
      converted parent and the per-row query's context. */
  function QueryMethodBody(parentType: TypeTag, body: LExpr): (r: LExpr)
    ensures !Mentions(r, QueryOwner) && !Mentions(r, QueryContext)
    ensures Closed(body, {QueryOwner, QueryContext}) ==> Closed(r, {ParentObject, Ctx})
  {
    var s := map[QueryOwner := ParentOwner(parentType), QueryContext := Parameter(Ctx)];
    SubstRemoves(body, s, QueryOwner);
    SubstRemoves(body, s, QueryContext);
    assert s.Keys == {QueryOwner, QueryContext};
    assert Closed(s[QueryOwner], {ParentObject, Ctx}) && Closed(s[QueryContext], {ParentObject, Ctx});
    if Closed(body, s.Keys) then SubstClosed(body, s, {ParentObject, Ctx}); Subst(body, s)
    else Subst(body, s)
  }

  /** What a successfully built per-row query is: the rewritten query
      method if there is one; otherwise the element table with one
      load-with per chain, each path following its chain, filtered by the
      association filter. */
  predicate IsPerRowQuery(assoc: AssociationDescriptor, inputs: SubqueryInputs, q: LExpr)
    requires inputs.queryMethod.None? ==> |assoc.thisKey| <= |assoc.otherKey|
  {
    if inputs.queryMethod.Some? then q == QueryMethodBody(inputs.parentType, inputs.queryMethod.value)
    else
      var chains := inputs.loadWith.GetOr([]);
      var filter := FilterOf(inputs.parentType, assoc.thisKey, assoc.otherKey, inputs.extraPredicate);
      && filter.Success?
      && q.Where?
      && q.filter == filter.value
      && LoadWithBase(q.source) == GetTable(inputs.elementType)
      && |LoadWithPaths(q.source)| == |chains|
      && (forall j :: 0 <= j < |chains| ==> Path(LoadWithPaths(q.source)[j]) == Some(Segments(chains[j], |chains[j]|)))
  }

  /** The query method and the extra predicate are lambdas over their own
      two parameters only. */
  predicate WellScoped(inputs: SubqueryInputs) {
    && (inputs.queryMethod.Some? ==> Closed(inputs.queryMethod.value, {QueryOwner, QueryContext}))
    && (inputs.extraPredicate.Some? ==> Closed(inputs.extraPredicate.value, {PredicateOwner, PredicateChild}))
  }

  datatype PerRow = PerRow(query: LExpr, container: Conversion)

  /** Builds the query each parent object runs and the conversion of its
      result. */
  method GetSubquery(assoc: AssociationDescriptor, inputs: SubqueryInputs) returns (r: Result<PerRow, Error>)
    requires inputs.queryMethod.None? ==> |assoc.thisKey| <= |assoc.otherKey|
    ensures inputs.queryMethod.None? && |assoc.thisKey| == 0 && inputs.extraPredicate.None? ==> r == Failure(EmptyFilter)
    ensures inputs.queryMethod.Some? || |assoc.thisKey| > 0 || inputs.extraPredicate.Some? ==>
      var c := ChooseContainer(assoc.memberType.name, inputs.objectType, inputs.shape);
      && (r.Success? <==> c.Success?)
      && (r.Failure? ==> r.error == c.error)
      && (r.Success? ==> r.value.container == c.value)
    ensures r.Success? ==> IsPerRowQuery(assoc, inputs, r.value.query)
    ensures r.Success? && WellScoped(inputs) ==> Closed(r.value.query, {Ctx, ParentObject, WhereRow, LoadWithRow})
  {
    var expression: LExpr;
    if inputs.queryMethod.Some? {
      expression := QueryMethodBody(inputs.parentType, inputs.queryMethod.value);
      if WellScoped(inputs) {
        ClosedWiden(expression, {ParentObject, Ctx}, {Ctx, ParentObject, WhereRow, LoadWithRow});
      }
    } else {
      var table := GetTable(inputs.elementType);
      var chains := inputs.loadWith.GetOr([]);
      var j := 0;
      while j < |chains|
        invariant 0 <= j <= |chains|
        invariant LoadWithBase(table) == GetTable(inputs.elementType)
        invariant |LoadWithPaths(table)| == j
        invariant forall k :: 0 <= k < j ==> Path(LoadWithPaths(table)[k]) == Some(Segments(chains[k], |chains[k]|))
        invariant Closed(table, {LoadWithRow})
      {
        var path := LoadWithPath(chains[j]);
        table := LoadWith(table, path);
        j := j + 1;
      }
      var filter :- BuildFilter(inputs.parentType, assoc.thisKey, assoc.otherKey, inputs.extraPredicate);
      expression := Where(table, filter);
      ClosedWiden(table, {LoadWithRow}, {Ctx, ParentObject, WhereRow, LoadWithRow});
      if WellScoped(inputs) {
        ClosedWiden(filter, {ParentObject, WhereRow}, {Ctx, ParentObject, WhereRow, LoadWithRow});
      }
    }
    var container :- ChooseContainer(assoc.memberType.name, inputs.objectType, inputs.shape);
    r := Success(PerRow(expression, container));
  }

  // ---- choosing how the association is materialised ------------------------------

  /** How an association's objects are produced: a delegated context
      forwards to the context built from its query method; a single object
      is read from the joined row as any table's object is; a collection
      runs the per-row query. */
  datatype QueryPlan = DelegateToInner | DefaultMaterialization | PerRowQuery(perRow: PerRow)

  /** The per-row query is impossible: no filter can be built or the member
      type admits no container. */
  predicate SubqueryFails(assoc: AssociationDescriptor, inputs: SubqueryInputs) {
    || (inputs.queryMethod.None? && |assoc.thisKey| == 0 && inputs.extraPredicate.None?)
    || ChooseContainer(assoc.memberType.name, inputs.objectType, inputs.shape).Failure?
  }

  method BuildQuery(ctx: AssociatedTable, assoc: AssociationDescriptor, allowMultipleQuery: bool, inputs: SubqueryInputs)
    returns (r: Result<QueryPlan, Error>)
    requires inputs.queryMethod.None? ==> |assoc.thisKey| <= |assoc.otherKey|
    ensures !ctx.isList ==> r == Success(if ctx.delegated then DelegateToInner else DefaultMaterialization)
    ensures ctx.isList && !allowMultipleQuery ==> r == Failure(MultipleQueriesNotAllowed(AllowMultipleQuerySetting))
    ensures r.Failure? <==> ctx.isList && (!allowMultipleQuery || SubqueryFails(assoc, inputs))
    ensures ctx.isList && allowMultipleQuery && r.Failure? ==>
      r.error == EmptyFilter || r.error == ExpectedConstructor(assoc.memberType.name, inputs.objectType)
    ensures ctx.isList && r.Success? ==>
      && r.value.PerRowQuery?
      && IsPerRowQuery(assoc, inputs, r.value.perRow.query)
      && r.value.perRow.container == ChooseContainer(assoc.memberType.name, inputs.objectType, inputs.shape).value
  {
    if !ctx.isList {
      return Success(if ctx.delegated then DelegateToInner else DefaultMaterialization);
    }
    if !allowMultipleQuery {
      return Failure(MultipleQueriesNotAllowed(AllowMultipleQuerySetting));
    }
    var perRow :- GetSubquery(assoc, inputs);
    r := Success(PerRowQuery(perRow));
  }
}

=== FILE: composition.dfy ===
/** Construction of an associated table context: the choice between a
    standalone subquery, an inlined custom association query and a plain
    join on the parent's table source, and the column hand-over of a
    delegated context to its parent. */
module Composition {
  import opened Wrappers
  import opened SqlModel
  import opened Rewrite
  import opened JoinCondition
  import opened Alias
  import opened MergeEngine
  import opened SourceLookup

  /** Declared type of the navigation member; a sequence type has an
      element type. */
  datatype MemberType = MemberType(name: TypeTag, isEnumerable: bool, elementType: TypeTag)

  /** The association mapping of one navigation member; the empty alias
      stands for "no alias". */
  datatype AssociationDescriptor = AssociationDescriptor(
    memberName: string,
    memberType: MemberType,
    thisKey: seq<string>,
    otherKey: seq<string>,
    canBeNull: bool,
    aliasName: string)

  /** The parent table context: its table and the query it belongs to. */
  datatype ParentContext = ParentContext(table: SqlTable, query: SelectQuery)

  /** What the collaborators of the constructor supply: the table mapped
      from the resolved object type, the query built from the association's
      query method (if it has one), the predicate conversion hook, the
      inheritance discriminator, the conditions of the extra predicate (if
      there is one), and the configured association alias pattern. */
  datatype Collaborators = Collaborators(
    objectTable: SqlTable,
    queryMethod: Option<SelectQuery>,
    convert: SqlExpr -> SqlExpr,
    discriminator: Discriminator,
    extra: Option<seq<Condition>>,
    aliasPattern: string)

  /** One resolved association. `query` is this context's query: the
      parent's (updated) query when the association is inlined, a query of
      its own when it is a subquery. `delegated` marks an inner context
      built from a query method, to which column resolution is forwarded. */
  datatype AssociatedTable = AssociatedTable(
    isList: bool,
    isSubQuery: bool,
    originalType: TypeTag,
    table: SqlTable,
    query: SelectQuery,
    parentJoin: Option<JoinedTable>,
    regularConditionCount: nat,
    replaceMap: Option<ReplaceMap>,
    delegated: bool)

  /** The navigation's type with a sequence type unwrapped to its element. */
  function OriginalType(mt: MemberType): TypeTag {
    if mt.isEnumerable then mt.elementType else mt.name
  }

  /** Optional associations, or ones forced optional by an enclosing chain,
      are joined with left joins. */
  predicate IsLeft(assoc: AssociationDescriptor, forceLeft: bool) {
    forceLeft || assoc.canBeNull
  }

  /** Setting the association's alias fails: it has no alias of its own
      and the configured pattern does not format. */
  predicate AliasFails(assoc: AssociationDescriptor, pattern: string) {
    assoc.aliasName == "" && pattern != "" && FormatAlias(pattern, assoc.memberName).Failure?
  }

  /** The table source with the association's alias set. */
  function AliasOf(assoc: AssociationDescriptor, pattern: string, ts: TableSource): (r: Result<TableSource, Error>)
    ensures r.Failure? <==> AliasFails(assoc, pattern)
    ensures r.Failure? ==> r.error == InvalidAliasFormat
    ensures r.Success? ==> r.value.source == ts.source && r.value.joins == ts.joins
  {
    match SetTableAlias(assoc.aliasName, pattern, assoc.memberName, Some(ts))
    case Success(t) => Success(t.value)
    case Failure(e) => Failure(e)
  }

  /** `loc` names a table source of `q`. */
  predicate ValidLocation(q: SelectQuery, loc: Location) {
    loc.top < |q.from| && SourceAt(q.from[loc.top], loc.path).Some?
  }

  /** `after` is `before` with `join` appended to the joins of the table
      source at `loc`; the other top-level entries, the table sources off
      the way to that one, the filter and the select list are unchanged,
      and removing that join gives back the top-level entry it went into,
      so nothing on the way down to the target changes either. */
  ghost predicate JoinAppended(before: SelectQuery, after: SelectQuery, loc: Location, join: JoinedTable)
    requires ValidLocation(before, loc)
  {
    var target := SourceAt(before.from[loc.top], loc.path).value;
    && |after.from| == |before.from|
    && (forall i :: 0 <= i < |before.from| && i != loc.top ==> after.from[i] == before.from[i])
    && SourceAt(after.from[loc.top], loc.path) == Some(target.(joins := target.joins + [join]))
    && DropLastAt(after.from[loc.top], loc.path) == before.from[loc.top]
    && (forall p :: SourceAt(before.from[loc.top], p).Some? && !OnTheWay(p, loc.path) ==>
          SourceAt(after.from[loc.top], p) == SourceAt(before.from[loc.top], p))
    && after.where == before.where && after.columns == before.columns
  }

  function AppendJoin(q: SelectQuery, loc: Location, join: JoinedTable): (r: SelectQuery)
    requires ValidLocation(q, loc)
    ensures JoinAppended(q, r, loc, join)
  {
    var ts := q.from[loc.top];
    var appended := AppendAt(ts, loc.path, join);
    assert forall p :: SourceAt(ts, p).Some? && !OnTheWay(p, loc.path) ==> SourceAt(appended, p) == SourceAt(ts, p) by {
      forall p | SourceAt(ts, p).Some? && !OnTheWay(p, loc.path)
        ensures SourceAt(appended, p) == SourceAt(ts, p)
      {
        AppendAtElsewhere(ts, loc.path, join, p);
      }
    }
    DropLastAfterAppend(ts, loc.path, join);
    q.(from := q.from[loc.top := appended])
  }

  /** In a chain `order.Customer.Address` the address join goes under the
      customer's table source; the customer join it hangs off may not
      change on the way, here by becoming a strict inner join. */
  lemma ChainedJoinKept(order: SqlTable, customer: SqlTable, addr: JoinedTable)
    ensures var before := SelectQuery([TableSource(Table(order), "",
                            [JoinedTable(Left, true, TableSource(Table(customer), "", []), [])])], [], []);
            var after := SelectQuery([TableSource(Table(order), "",
                            [JoinedTable(Inner, false, TableSource(Table(customer), "", [addr]), [])])], [], []);
            var loc := Location(0, [ViaJoin(0)]);
            ValidLocation(before, loc) && !JoinAppended(before, after, loc, addr)
  {
    var before := SelectQuery([TableSource(Table(order), "",
                    [JoinedTable(Left, true, TableSource(Table(customer), "", []), [])])], [], []);
    var after := SelectQuery([TableSource(Table(order), "",
                    [JoinedTable(Inner, false, TableSource(Table(customer), "", [addr]), [])])], [], []);
    var path := [ViaJoin(0)];
    assert path[1..] == [];
    assert SourceAt(before.from[0], path) == Some(TableSource(Table(customer), "", []));
    assert SourceAt(after.from[0], path) == Some(TableSource(Table(customer), "", [addr]));
    assert DropLastAt(after.from[0], path).joins[0].kind == Inner;
  }

  /** `JoinAppended` leaves no freedom: the only query it admits is the
      append itself. */
  lemma JoinAppendedDetermined(before: SelectQuery, after: SelectQuery, loc: Location, join: JoinedTable)
    requires ValidLocation(before, loc) && JoinAppended(before, after, loc, join)
    ensures after == AppendJoin(before, loc, join)
  {
    var ts := before.from[loc.top];
    AppendAtDetermined(ts, after.from[loc.top], loc.path, join);
    assert after.from == before.from[loc.top := AppendAt(ts, loc.path, join)];
  }

  /** Some key of the association is missing on its side's table. */
  predicate KeyMissing(parent: SqlTable, assoc: AssociationDescriptor, c: Collaborators)
    requires |assoc.thisKey| <= |assoc.otherKey|
  {
    exists i :: 0 <= i < |assoc.thisKey| && KeyCheck(parent, c.objectTable, assoc.thisKey, assoc.otherKey, i).Some?
  }

  /** A join appended where the lookup found a table leaves the lookup
      finding it there. */
  lemma AppendJoinKeepsLookup(q: SelectQuery, t: SqlTable, loc: Location, join: JoinedTable)
    requires FindSource(q.from, t, 0) == Some(loc)
    ensures ValidLocation(q, loc)
    ensures FindSource(AppendJoin(q, loc, join).from, t, 0) == Some(loc)
  {
    FindSourceAfterAppend(q.from, t, 0, loc, join);
  }

  /** `conditions` is an association condition built from scratch: the key
      equalities in key order lead, the discriminator follows them when it
      is added, the regular count covers exactly those, and the extra
      predicate's conditions follow. */
  predicate CarriesAssociationCondition(parent: SqlTable, assoc: AssociationDescriptor, c: Collaborators,
                                        conditions: seq<Condition>, regularCount: nat)
    requires |assoc.thisKey| <= |assoc.otherKey|
  {
    var adds := AddsDiscriminator(c.objectTable, OriginalType(assoc.memberType), c.discriminator);
    && regularCount == |assoc.thisKey| + (if adds then 1 else 0)
    && regularCount <= |conditions|
    && (forall i :: 0 <= i < |assoc.thisKey| ==>
          conditions[i] == KeyEquality(parent, c.objectTable, assoc.thisKey, assoc.otherKey, c.convert, i))
    && (adds ==> conditions[|assoc.thisKey|] == Condition(false, c.discriminator.pred))
    && conditions[regularCount..] == c.extra.GetOr([])
  }

  /** The association condition built with no prior conditions. */
  method FreshCondition(parent: ParentContext, assoc: AssociationDescriptor, c: Collaborators)
    returns (r: Result<BuiltCondition, Error>)
    requires |assoc.thisKey| <= |assoc.otherKey|
    ensures r.Failure? <==> KeyMissing(parent.table, assoc, c)
    ensures r.Failure? ==>
      exists i :: && 0 <= i < |assoc.thisKey|
                  && KeyCheck(parent.table, c.objectTable, assoc.thisKey, assoc.otherKey, i) == Some(r.error)
                  && forall j :: 0 <= j < i ==> KeyCheck(parent.table, c.objectTable, assoc.thisKey, assoc.otherKey, j).None?
    ensures r.Success? ==> CarriesAssociationCondition(parent.table, assoc, c, r.value.conditions, r.value.regularCount)
  {
    r := BuildAssociationCondition(parent.table, c.objectTable, assoc.thisKey, assoc.otherKey,
                                   c.convert, OriginalType(assoc.memberType), c.discriminator, c.extra);
  }

  datatype Attached = Attached(query: SelectQuery, join: JoinedTable, regularCount: nat)

  /** `query` is the parent's query with `join` attached to the table source
      reading the parent's table: a weak left or inner join to the
      association's aliased table carrying the association condition, whose
      regular part is `regularCount` long. The parent's table is still
      found where it was, so a further association off the same parent is
      attached to the same table source. */
  ghost predicate IsAttached(parent: ParentContext, assoc: AssociationDescriptor, left: bool, c: Collaborators,
                             query: SelectQuery, join: JoinedTable, regularCount: nat)
    requires |assoc.thisKey| <= |assoc.otherKey|
  {
    var found := FindSource(parent.query.from, parent.table, 0);
    && found.Some?
    && JoinAppended(parent.query, query, found.value, join)
    && FindSource(query.from, parent.table, 0) == found
    && join.weak && join.kind == (if left then Left else Inner)
    && AliasOf(assoc, c.aliasPattern, TableSource(Table(c.objectTable), "", [])) == Success(join.table)
    && CarriesAssociationCondition(parent.table, assoc, c, join.condition, regularCount)
  }

  /** The plain inline path: a weak left or inner join to the association's
      table is appended to the parent table's source, wherever that source
      sits in the parent query, carrying the association condition and the
      association alias. */
  method AttachInlineJoin(parent: ParentContext, assoc: AssociationDescriptor, left: bool, c: Collaborators)
    returns (r: Result<Attached, Error>)
    requires |assoc.thisKey| <= |assoc.otherKey|
    ensures FindSource(parent.query.from, parent.table, 0).None? ==> r == Failure(ParentSourceNotFound)
    ensures FindSource(parent.query.from, parent.table, 0).Some? ==>
      (r.Failure? <==> KeyMissing(parent.table, assoc, c) || AliasFails(assoc, c.aliasPattern))
    ensures FindSource(parent.query.from, parent.table, 0).Some? && KeyMissing(parent.table, assoc, c) ==>
      r.Failure? && exists i :: 0 <= i < |assoc.thisKey| && KeyCheck(parent.table, c.objectTable, assoc.thisKey, assoc.otherKey, i) == Some(r.error)
    ensures FindSource(parent.query.from, parent.table, 0).Some? && r.Failure? && !KeyMissing(parent.table, assoc, c) ==>
      r.error == InvalidAliasFormat
    ensures r.Success? ==> IsAttached(parent, assoc, left, c, r.value.query, r.value.join, r.value.regularCount)
    ensures r.Success? ==>
      var loc := FindSource(parent.query.from, parent.table, 0).value;
      var s := SourceAt(r.value.query.from[loc.top], loc.path);
      && s.Some? && s.value.source == Table(parent.table)
      && |s.value.joins| > 0 && s.value.joins[|s.value.joins| - 1] == r.value.join
  {
    var found := FindSource(parent.query.from, parent.table, 0);
    if found.None? {
      return Failure(ParentSourceNotFound);
    }
    var loc := found.value;
    var built :- FreshCondition(parent, assoc, c);
    var ts :- AliasOf(assoc, c.aliasPattern, TableSource(Table(c.objectTable), "", []));
    var join := JoinedTable(if left then Left else Inner, true, ts, built.conditions);
    AppendJoinKeepsLookup(parent.query, parent.table, loc, join);
    r := Success(Attached(AppendJoin(parent.query, loc, join), join, built.regularCount));
  }

  datatype SubQueryBuilt = SubQueryBuilt(query: SelectQuery, regularCount: nat)

  /** `query` with `regularCount` is what the subquery path builds: the
      query method's query with its first table source aliased and no
      regular conditions, or else a query whose only source is the
      association's aliased table, filtered by the association condition. */
  predicate IsSubQuery(parent: ParentContext, assoc: AssociationDescriptor, c: Collaborators,
                       query: SelectQuery, regularCount: nat)
    requires c.queryMethod.None? ==> |assoc.thisKey| <= |assoc.otherKey|
  {
    && |query.from| > 0
    && (c.queryMethod.Some? ==>
          var q := c.queryMethod.value;
          && |q.from| > 0
          && query.from[1..] == q.from[1..]
          && AliasOf(assoc, c.aliasPattern, q.from[0]) == Success(query.from[0])
          && query.where == q.where && query.columns == q.columns
          && regularCount == 0)
    && (c.queryMethod.None? ==>
          && |query.from| == 1
          && AliasOf(assoc, c.aliasPattern, TableSource(Table(c.objectTable), "", [])) == Success(query.from[0])
          && query.columns == []
          && CarriesAssociationCondition(parent.table, assoc, c, query.where, regularCount))
  }

  /** The subquery path: the query built from the query method is adopted
      as it is, or else the association's table becomes the sole source of
      a fresh query filtered by the association condition. Either way the
      first table source gets the association alias. */
  method BuildSubQuery(parent: ParentContext, assoc: AssociationDescriptor, c: Collaborators)
    returns (r: Result<SubQueryBuilt, Error>)
    requires c.queryMethod.None? ==> |assoc.thisKey| <= |assoc.otherKey|
    ensures c.queryMethod.Some? && |c.queryMethod.value.from| == 0 ==> r == Failure(CannotInline)
    ensures c.queryMethod.Some? && |c.queryMethod.value.from| > 0 ==> (r.Failure? <==> AliasFails(assoc, c.aliasPattern))
    ensures AliasFails(assoc, c.aliasPattern) ==> r.Failure?
    ensures c.queryMethod.None? ==>
      (r.Failure? <==> KeyMissing(parent.table, assoc, c) || AliasFails(assoc, c.aliasPattern))
    ensures c.queryMethod.None? && KeyMissing(parent.table, assoc, c) ==>
      r.Failure? && exists i :: 0 <= i < |assoc.thisKey| && KeyCheck(parent.table, c.objectTable, assoc.thisKey, assoc.otherKey, i) == Some(r.error)
    ensures r.Failure? && (c.queryMethod.None? ==> !KeyMissing(parent.table, assoc, c)) ==>
      r.error == (if c.queryMethod.Some? && |c.queryMethod.value.from| == 0 then CannotInline else InvalidAliasFormat)
    ensures r.Success? ==> IsSubQuery(parent, assoc, c, r.value.query, r.value.regularCount)
  {
    if c.queryMethod.Some? {
      var q := c.queryMethod.value;
      if |q.from| < 1 {
        return Failure(CannotInline);
      }
      var first :- AliasOf(assoc, c.aliasPattern, q.from[0]);
      var query := q.(from := q.from[0 := first]);
      r := Success(SubQueryBuilt(query, 0));
    } else {
      var built :- FreshCondition(parent, assoc, c);
      var ts :- AliasOf(assoc, c.aliasPattern, TableSource(Table(c.objectTable), "", []));
      r := Success(SubQueryBuilt(SelectQuery([ts], built.conditions, []), built.regularCount));
    }
  }

  /** `query`, `primaryJoin` and `replaceMap` are what the merge path
      builds: the merged query and field map, with only the association
      join's table aliased. */
  predicate IsInlined(parent: ParentContext, assoc: AssociationDescriptor, left: bool, c: Collaborators, q: SelectQuery,
                      query: SelectQuery, primaryJoin: Option<JoinedTable>, replaceMap: ReplaceMap)
    requires |parent.query.from| > 0
  {
    var merged := MergeAssociationQuery(parent.query, parent.table, q.from, left);
    && merged.Success?
    && (var m := merged.value;
        var n := |parent.query.from[0].joins|;
        && replaceMap == m.replaceMap
        && |query.from| == |m.query.from|
        && query.from[1..] == m.query.from[1..]
        && query.where == m.query.where && query.columns == m.query.columns
        && query.from[0] == m.query.from[0].(joins := query.from[0].joins)
        && |query.from[0].joins| == |m.query.from[0].joins|
        && (primaryJoin.Some? <==> m.primaryJoin.Some?)
        && (m.primaryJoin.None? ==> query == m.query)
        && (m.primaryJoin.Some? ==>
              && primaryJoin.value == m.primaryJoin.value.(table := primaryJoin.value.table)
              && AliasOf(assoc, c.aliasPattern, m.primaryJoin.value.table) == Success(primaryJoin.value.table)
              && query.from[0].joins == m.query.from[0].joins[n := primaryJoin.value]))
  }

  /** The merge path followed by the alias of the primary join's table. */
  method InlineAssociationQuery(parent: ParentContext, assoc: AssociationDescriptor, left: bool, c: Collaborators, q: SelectQuery)
    returns (r: Result<Merged, Error>)
    requires |parent.query.from| > 0
    ensures MergeAssociationQuery(parent.query, parent.table, q.from, left).Failure? ==>
      r == Failure(MergeAssociationQuery(parent.query, parent.table, q.from, left).error)
    ensures MergeAssociationQuery(parent.query, parent.table, q.from, left).Success? ==>
      var m := MergeAssociationQuery(parent.query, parent.table, q.from, left).value;
      && (m.primaryJoin.None? ==> r == Success(m))
      && (m.primaryJoin.Some? ==> (r.Failure? <==> AliasFails(assoc, c.aliasPattern)))
      && (r.Failure? ==> r.error == InvalidAliasFormat)
    ensures r.Success? ==>
      && IsInlined(parent, assoc, left, c, q, r.value.query, r.value.primaryJoin, r.value.replaceMap)
      && r.value.placeholder == MergeAssociationQuery(parent.query, parent.table, q.from, left).value.placeholder
  {
    var m :- MergeAssociationQuery(parent.query, parent.table, q.from, left);
    if m.primaryJoin.None? {
      return Success(m);
    }
    var n := |parent.query.from[0].joins|;
    var join := m.primaryJoin.value;
    var table :- AliasOf(assoc, c.aliasPattern, join.table);
    var aliased := join.(table := table);
    var owner := m.query.from[0];
    var query := m.query.(from := m.query.from[0 := owner.(joins := owner.joins[n := aliased])]);
    r := Success(m.(query := query, primaryJoin := Some(aliased)));
  }

  /** The constructor: picks the composition strategy and records what it
      built. */
  method NewAssociatedTable(parent: ParentContext, assoc: AssociationDescriptor, forceLeft: bool, asSubquery: bool, c: Collaborators)
    returns (r: Result<AssociatedTable, Error>)
    requires c.queryMethod.None? ==> |assoc.thisKey| <= |assoc.otherKey|
    requires !asSubquery && c.queryMethod.Some? ==> |parent.query.from| > 0
    ensures c.queryMethod.Some? && |c.queryMethod.value.from| == 0 ==> r == Failure(CannotInline)
    ensures (asSubquery || c.queryMethod.None?) && AliasFails(assoc, c.aliasPattern) ==> r.Failure?
    ensures r.Success? ==>
      && r.value.isList == assoc.memberType.isEnumerable
      && r.value.isSubQuery == asSubquery
      && r.value.originalType == OriginalType(assoc.memberType)
      && r.value.table == c.objectTable
      && (r.value.delegated <==> c.queryMethod.Some?)
      && (r.value.replaceMap.Some? <==> !asSubquery && c.queryMethod.Some?)
    ensures r.Success? && asSubquery ==> r.value.parentJoin.None?
    ensures r.Success? && !asSubquery && c.queryMethod.None? ==>
      && r.value.parentJoin.Some?
      && r.value.parentJoin.value.weak
      && r.value.parentJoin.value.kind == (if IsLeft(assoc, forceLeft) then Left else Inner)
    ensures r.Success? && !asSubquery && c.queryMethod.Some? ==>
      var m := MergeAssociationQuery(parent.query, parent.table, c.queryMethod.value.from, IsLeft(assoc, forceLeft));
      m.Success? && (r.value.parentJoin.Some? <==> m.value.primaryJoin.Some?)
    ensures asSubquery && c.queryMethod.None? ==>
      (r.Failure? <==> KeyMissing(parent.table, assoc, c) || AliasFails(assoc, c.aliasPattern))
    ensures !asSubquery && c.queryMethod.None? ==>
      (r.Failure? <==>
         || FindSource(parent.query.from, parent.table, 0).None?
         || KeyMissing(parent.table, assoc, c) || AliasFails(assoc, c.aliasPattern))
    ensures r.Success? && asSubquery ==>
      IsSubQuery(parent, assoc, c, r.value.query, r.value.regularConditionCount)
    ensures r.Success? && !asSubquery && c.queryMethod.Some? ==>
      && r.value.regularConditionCount == 0
      && IsInlined(parent, assoc, IsLeft(assoc, forceLeft), c, c.queryMethod.value,
                   r.value.query, r.value.parentJoin, r.value.replaceMap.value)
    ensures r.Success? && !asSubquery && c.queryMethod.None? ==>
      IsAttached(parent, assoc, IsLeft(assoc, forceLeft), c, r.value.query, r.value.parentJoin.value,
                 r.value.regularConditionCount)
  {
    var left := IsLeft(assoc, forceLeft);
    var originalType := OriginalType(assoc.memberType);
    var isList := assoc.memberType.isEnumerable;
    if asSubquery {
      var sub :- BuildSubQuery(parent, assoc, c);
      return Success(AssociatedTable(isList, true, originalType, c.objectTable, sub.query, None,
                                     sub.regularCount, None, c.queryMethod.Some?));
    }
    if c.queryMethod.Some? {
      var merged :- InlineAssociationQuery(parent, assoc, left, c, c.queryMethod.value);
      return Success(AssociatedTable(isList, false, originalType, c.objectTable, merged.query, merged.primaryJoin,
                                     0, Some(merged.replaceMap), true));
    }
    var attached :- AttachInlineJoin(parent, assoc, left, c);
    r := Success(AssociatedTable(isList, false, originalType, c.objectTable, attached.query, Some(attached.join),
                                 attached.regularCount, None, false));
  }

  // ---- column hand-over to the parent ------------------------------------------

  /** The local step of converting a column index for the parent: a
      delegated context takes the inner query's column at `index`, cleans it
      through the field map and appends it to its own select list, whose new
      position is the index passed on. A context built directly passes the
      index on unchanged. An index outside the inner select list is an
      error, and so is a column that reads a field when there is no field
      map, since the cleaning looks every field up in the map. */
  function ConvertToParentIndexStep(ctx: AssociatedTable, innerColumns: seq<SqlExpr>, index: int): (r: Result<(AssociatedTable, int), Error>)
    ensures !ctx.delegated ==> r == Success((ctx, index))
    ensures ctx.delegated && !(0 <= index < |innerColumns|) ==> r == Failure(ColumnIndexOutOfRange)
    ensures ctx.delegated && 0 <= index < |innerColumns| ==>
      (r.Failure? <==> ctx.replaceMap.None? && ReadsAnyField(innerColumns[index]))
    ensures ctx.delegated && 0 <= index < |innerColumns| && r.Failure? ==> r.error == MissingReplaceMap
    ensures r.Success? && ctx.delegated ==>
      && r.value.1 == |ctx.query.columns|
      && |r.value.0.query.columns| == |ctx.query.columns| + 1
      && r.value.0.query.columns[..|ctx.query.columns|] == ctx.query.columns
      && r.value.0 == ctx.(query := r.value.0.query)
      && r.value.0.query.from == ctx.query.from && r.value.0.query.where == ctx.query.where
    ensures r.Success? && ctx.delegated && ctx.replaceMap.None? ==>
      r.value.0.query.columns[r.value.1] == innerColumns[index]
  {
    if !ctx.delegated then Success((ctx, index))
    else if !(0 <= index < |innerColumns|) then Failure(ColumnIndexOutOfRange)
    else
      var column :- match ctx.replaceMap
        case Some(m) => Success(CorrectExpression(innerColumns[index], m))
        case None => if ReadsAnyField(innerColumns[index]) then Failure(MissingReplaceMap) else Success(innerColumns[index]);
      Success((ctx.(query := ctx.query.(columns := ctx.query.columns + [column])), |ctx.query.columns|))
  }

  /** The column handed over to the parent reads no placeholder column: it
      is the inner column with the placeholder renamed to the parent table. */
  lemma ConvertToParentIndexCleansColumn(ctx: AssociatedTable, innerColumns: seq<SqlExpr>, index: nat,
                                         placeholder: SqlTable, parentTable: SqlTable)
    requires ctx.delegated && index < |innerColumns|
    requires ctx.replaceMap.Some? && ReplacesWith(ctx.replaceMap.value, placeholder, parentTable)
    requires placeholder.id != parentTable.id
    requires ExprFieldsDeclared(innerColumns[index], placeholder)
    ensures var r := ConvertToParentIndexStep(ctx, innerColumns, index);
      && r.Success?
      && r.value.0.query.columns[r.value.1] == Rename(innerColumns[index], placeholder.id, parentTable.id)
      && !ExprUsesTable(r.value.0.query.columns[r.value.1], placeholder.id)
  {
    RewriteIsRename(innerColumns[index], ctx.replaceMap.value, placeholder, parentTable);
    RenameRemovesTable(innerColumns[index], placeholder.id, parentTable.id);
  }
}

=== FILE: join_condition.dfy ===
/** The join condition of an association: one key equality per key pair,
    an optional inheritance discriminator, then the conditions of the
    association's extra predicate. */
module JoinCondition {
  import opened Wrappers
  import opened SqlModel

  /** What the inheritance mapping produced for "is the declared type":
      `plain` marks a bare expression predicate (no real filter), which is
      not added to the condition. */
  datatype Discriminator = Discriminator(pred: SqlExpr, plain: bool)

  /** The finished condition list and the number of its leading "regular"
      (key equality and discriminator) conditions. */
  datatype BuiltCondition = BuiltCondition(conditions: seq<Condition>, regularCount: nat)

  /** The failure at key index `i`, if any: the parent key is looked up on
      the parent table first, then the other key on the child table. */
  function KeyCheck(parent: SqlTable, child: SqlTable, thisKey: seq<string>, otherKey: seq<string>, i: nat): Option<Error>
    requires i < |thisKey| <= |otherKey|
  {
    if thisKey[i] !in parent.fields then Some(KeyNotFound(thisKey[i], parent.objectType))
    else if otherKey[i] !in child.fields then Some(KeyNotFound(otherKey[i], child.objectType))
    else None
  }

  /** `parent.ThisKey[i] = child.OtherKey[i]`, passed through the provider's
      predicate conversion hook. */
  function KeyEquality(parent: SqlTable, child: SqlTable, thisKey: seq<string>, otherKey: seq<string>,
                       convert: SqlExpr -> SqlExpr, i: nat): Condition
    requires i < |thisKey| <= |otherKey|
  {
    Condition(false, convert(Binary("=", FieldOf(parent, thisKey[i]), FieldOf(child, otherKey[i]))))
  }

  /** The discriminator is added when inheritance resolved a different
      object type and it is more than a bare expression. */
  predicate AddsDiscriminator(child: SqlTable, originalType: TypeTag, d: Discriminator) {
    child.objectType != originalType && !d.plain
  }

  /** Builds the association's conditions into a fresh condition list.
      `child` is this association's table (mapped from the resolved object
      type). */
  method BuildAssociationCondition(parent: SqlTable, child: SqlTable, thisKey: seq<string>, otherKey: seq<string>,
                                   convert: SqlExpr -> SqlExpr, originalType: TypeTag, discriminator: Discriminator,
                                   extra: Option<seq<Condition>>)
    returns (r: Result<BuiltCondition, Error>)
    requires |thisKey| <= |otherKey|
    ensures r.Failure? <==> exists i :: 0 <= i < |thisKey| && KeyCheck(parent, child, thisKey, otherKey, i).Some?
    ensures r.Failure? ==>
      exists i :: && 0 <= i < |thisKey|
                  && KeyCheck(parent, child, thisKey, otherKey, i) == Some(r.error)
                  && forall j :: 0 <= j < i ==> KeyCheck(parent, child, thisKey, otherKey, j).None?
    ensures r.Success? ==> |thisKey| <= r.value.regularCount <= |r.value.conditions|
    ensures r.Success? ==> forall i :: 0 <= i < |thisKey| ==>
      r.value.conditions[i] == KeyEquality(parent, child, thisKey, otherKey, convert, i)
    ensures r.Success? ==>
      r.value.regularCount == |thisKey| + (if AddsDiscriminator(child, originalType, discriminator) then 1 else 0)
    ensures r.Success? ==>
      (r.value.regularCount == |thisKey| + 1 <==> AddsDiscriminator(child, originalType, discriminator))
    ensures r.Success? && AddsDiscriminator(child, originalType, discriminator) ==>
      r.value.conditions[|thisKey|] == Condition(false, discriminator.pred)
    ensures r.Success? ==> r.value.conditions[r.value.regularCount..] == extra.GetOr([])
  {
    var conditions: seq<Condition> := [];
    var i := 0;
    while i < |thisKey|
      invariant 0 <= i <= |thisKey|
      invariant |conditions| == i
      invariant forall k :: 0 <= k < i ==> conditions[k] == KeyEquality(parent, child, thisKey, otherKey, convert, k)
      invariant forall k :: 0 <= k < i ==> KeyCheck(parent, child, thisKey, otherKey, k).None?
    {
      if thisKey[i] !in parent.fields {
        assert KeyCheck(parent, child, thisKey, otherKey, i).Some?;
        return Failure(KeyNotFound(thisKey[i], parent.objectType));
      }
      if otherKey[i] !in child.fields {
        assert KeyCheck(parent, child, thisKey, otherKey, i).Some?;
        return Failure(KeyNotFound(otherKey[i], child.objectType));
      }
      conditions := conditions + [KeyEquality(parent, child, thisKey, otherKey, convert, i)];
      i := i + 1;
    }
    if child.objectType != originalType && !discriminator.plain {
      conditions := conditions + [Condition(false, discriminator.pred)];
    }
    var regularCount := |conditions|;
    if extra.Some? {
      conditions := conditions + extra.value;
    }
    r := Success(BuiltCondition(conditions, regularCount));
  }
}

=== FILE: linq_model.dfy ===
/** The query-expression level used by the one-query-per-row fallback:
    lambda parameters, member accesses, comparisons and query operators,
    with parameter substitution and a small evaluator for key filters. */
module LinqModel {
  import opened Wrappers
  import opened SqlModel

  /** The lambda parameters in play: those of the association's query method
      (owner, data context) and extra predicate (owner, child), and those of
      the per-row query (data context, parent object, filtered row,
      load-with row). */
  datatype Param = QueryOwner | QueryContext | PredicateOwner | PredicateChild | Ctx | ParentObject | WhereRow | LoadWithRow

  datatype LExpr =
    | Parameter(p: Param)
    | Member(obj: LExpr, name: string)
    | Convert(arg: LExpr, ty: TypeTag)
    | Equal(lhs: LExpr, rhs: LExpr)
    | AndAlso(lhs: LExpr, rhs: LExpr)
    | Apply(op: string, lhs: LExpr, rhs: LExpr)   // any other operation of a user lambda
    | Constant(v: int)
    | GetItem(arg: LExpr)                          // an element of a collection-typed member
    | GetTable(elementType: TypeTag)
    | LoadWith(source: LExpr, path: LExpr)
    | Where(source: LExpr, filter: LExpr)

  /** `e` refers to parameter `p`. */
  predicate Mentions(e: LExpr, p: Param) {
    match e
    case Parameter(q) => q == p
    case Member(o, _) => Mentions(o, p)
    case Convert(a, _) => Mentions(a, p)
    case Equal(l, r) => Mentions(l, p) || Mentions(r, p)
    case AndAlso(l, r) => Mentions(l, p) || Mentions(r, p)
    case Apply(_, l, r) => Mentions(l, p) || Mentions(r, p)
    case Constant(_) => false
    case GetItem(a) => Mentions(a, p)
    case GetTable(_) => false
    case LoadWith(s, q) => Mentions(s, p) || Mentions(q, p)
    case Where(s, f) => Mentions(s, p) || Mentions(f, p)
  }

  /** Replaces the parameters in the domain of `s`, everything else kept. */
  function Subst(e: LExpr, s: map<Param, LExpr>): LExpr {
    match e
    case Parameter(q) => if q in s then s[q] else e
    case Member(o, n) => Member(Subst(o, s), n)
    case Convert(a, t) => Convert(Subst(a, s), t)
    case Equal(l, r) => Equal(Subst(l, s), Subst(r, s))
    case AndAlso(l, r) => AndAlso(Subst(l, s), Subst(r, s))
    case Apply(op, l, r) => Apply(op, Subst(l, s), Subst(r, s))
    case Constant(_) => e
    case GetItem(a) => GetItem(Subst(a, s))
    case GetTable(_) => e
    case LoadWith(src, q) => LoadWith(Subst(src, s), Subst(q, s))
    case Where(src, f) => Where(Subst(src, s), Subst(f, s))
  }

  /** After substitution a replaced parameter is gone, provided no
      replacement mentions it. */
  lemma {:induction false} SubstRemoves(e: LExpr, s: map<Param, LExpr>, p: Param)
    requires p in s
    requires forall q :: q in s ==> !Mentions(s[q], p)
    ensures !Mentions(Subst(e, s), p)
  {
    match e
    case Parameter(q) =>
    case Member(o, _) => SubstRemoves(o, s, p);
    case Convert(a, _) => SubstRemoves(a, s, p);
    case Equal(l, r) => SubstRemoves(l, s, p); SubstRemoves(r, s, p);
    case AndAlso(l, r) => SubstRemoves(l, s, p); SubstRemoves(r, s, p);
    case Apply(_, l, r) => SubstRemoves(l, s, p); SubstRemoves(r, s, p);
    case Constant(_) =>
    case GetItem(a) => SubstRemoves(a, s, p);
    case GetTable(_) =>
    case LoadWith(src, q) => SubstRemoves(src, s, p); SubstRemoves(q, s, p);
    case Where(src, f) => SubstRemoves(src, s, p); SubstRemoves(f, s, p);
  }

  /** A parameter outside the domain is mentioned after substitution only if
      it was before or the replacement of a parameter that was mentions it. */
  lemma {:induction false} SubstMentions(e: LExpr, s: map<Param, LExpr>, p: Param)
    requires p !in s
    ensures Mentions(Subst(e, s), p) ==> Mentions(e, p) || exists q :: q in s && Mentions(e, q) && Mentions(s[q], p)
  {
    match e
    case Parameter(q) =>
      if q in s && Mentions(s[q], p) {
        assert Mentions(e, q);
      }
    case Member(o, _) => SubstMentions(o, s, p);
    case Convert(a, _) => SubstMentions(a, s, p);
    case Equal(l, r) => SubstMentions(l, s, p); SubstMentions(r, s, p);
    case AndAlso(l, r) => SubstMentions(l, s, p); SubstMentions(r, s, p);
    case Apply(_, l, r) => SubstMentions(l, s, p); SubstMentions(r, s, p);
    case Constant(_) =>
    case GetItem(a) => SubstMentions(a, s, p);
    case GetTable(_) =>
    case LoadWith(src, q) => SubstMentions(src, s, p); SubstMentions(q, s, p);
    case Where(src, f) => SubstMentions(src, s, p); SubstMentions(f, s, p);
  }

  /** Substitution leaves an expression alone that mentions none of the
      replaced parameters. */
  lemma {:induction false} SubstUntouched(e: LExpr, s: map<Param, LExpr>)
    requires forall q :: q in s ==> !Mentions(e, q)
    ensures Subst(e, s) == e
  {
    match e
    case Parameter(q) =>
    case Member(o, _) => SubstUntouched(o, s);
    case Convert(a, _) => SubstUntouched(a, s);
    case Equal(l, r) => SubstUntouched(l, s); SubstUntouched(r, s);
    case AndAlso(l, r) => SubstUntouched(l, s); SubstUntouched(r, s);
    case Apply(_, l, r) => SubstUntouched(l, s); SubstUntouched(r, s);
    case Constant(_) =>
    case GetItem(a) => SubstUntouched(a, s);
    case GetTable(_) =>
    case LoadWith(src, q) => SubstUntouched(src, s); SubstUntouched(q, s);
    case Where(src, f) => SubstUntouched(src, s); SubstUntouched(f, s);
  }

  /** `e` mentions no parameter outside `params`, as a lambda body over
      exactly those parameters does. */
  predicate Closed(e: LExpr, params: set<Param>) {
    match e
    case Parameter(q) => q in params
    case Member(o, _) => Closed(o, params)
    case Convert(a, _) => Closed(a, params)
    case Equal(l, r) => Closed(l, params) && Closed(r, params)
    case AndAlso(l, r) => Closed(l, params) && Closed(r, params)
    case Apply(_, l, r) => Closed(l, params) && Closed(r, params)
    case Constant(_) => true
    case GetItem(a) => Closed(a, params)
    case GetTable(_) => true
    case LoadWith(src, q) => Closed(src, params) && Closed(q, params)
    case Where(src, f) => Closed(src, params) && Closed(f, params)
  }

  /** A closed expression mentions only its parameters. */
  lemma {:induction false} ClosedMentions(e: LExpr, params: set<Param>, p: Param)
    requires Closed(e, params)
    ensures Mentions(e, p) ==> p in params
  {
    match e
    case Parameter(q) =>
    case Member(o, _) => ClosedMentions(o, params, p);
    case Convert(a, _) => ClosedMentions(a, params, p);
    case Equal(l, r) => ClosedMentions(l, params, p); ClosedMentions(r, params, p);
    case AndAlso(l, r) => ClosedMentions(l, params, p); ClosedMentions(r, params, p);
    case Apply(_, l, r) => ClosedMentions(l, params, p); ClosedMentions(r, params, p);
    case Constant(_) =>
    case GetItem(a) => ClosedMentions(a, params, p);
    case GetTable(_) =>
    case LoadWith(src, q) => ClosedMentions(src, params, p); ClosedMentions(q, params, p);
    case Where(src, f) => ClosedMentions(src, params, p); ClosedMentions(f, params, p);
  }

  /** Closed over some parameters is closed over more. */
  lemma {:induction false} ClosedWiden(e: LExpr, params: set<Param>, more: set<Param>)
    requires Closed(e, params) && params <= more
    ensures Closed(e, more)
  {
    match e
    case Parameter(q) =>
    case Member(o, _) => ClosedWiden(o, params, more);
    case Convert(a, _) => ClosedWiden(a, params, more);
    case Equal(l, r) => ClosedWiden(l, params, more); ClosedWiden(r, params, more);
    case AndAlso(l, r) => ClosedWiden(l, params, more); ClosedWiden(r, params, more);
    case Apply(_, l, r) => ClosedWiden(l, params, more); ClosedWiden(r, params, more);
    case Constant(_) =>
    case GetItem(a) => ClosedWiden(a, params, more);
    case GetTable(_) =>
    case LoadWith(src, q) => ClosedWiden(src, params, more); ClosedWiden(q, params, more);
    case Where(src, f) => ClosedWiden(src, params, more); ClosedWiden(f, params, more);
  }

  /** Substituting every parameter of a closed expression by expressions
      closed over `t` gives an expression closed over `t`. */
  lemma {:induction false} SubstClosed(e: LExpr, s: map<Param, LExpr>, t: set<Param>)
    requires Closed(e, s.Keys)
    requires forall q :: q in s ==> Closed(s[q], t)
    ensures Closed(Subst(e, s), t)
  {
    match e
    case Parameter(q) =>
    case Member(o, _) => SubstClosed(o, s, t);
    case Convert(a, _) => SubstClosed(a, s, t);
    case Equal(l, r) => SubstClosed(l, s, t); SubstClosed(r, s, t);
    case AndAlso(l, r) => SubstClosed(l, s, t); SubstClosed(r, s, t);
    case Apply(_, l, r) => SubstClosed(l, s, t); SubstClosed(r, s, t);
    case Constant(_) =>
    case GetItem(a) => SubstClosed(a, s, t);
    case GetTable(_) =>
    case LoadWith(src, q) => SubstClosed(src, s, t); SubstClosed(q, s, t);
    case Where(src, f) => SubstClosed(src, s, t); SubstClosed(f, s, t);
  }

  // ---- evaluating a filter over one parent object and one row ----------------

  datatype Val = IntV(i: int) | BoolV(b: bool)

  /** Records are maps from member name to value. Members of the converted
      parent object read `parent`, members of the filtered row read `row`;
      `AndAlso` short-circuits. Anything else has no value here. */
  function Eval(e: LExpr, parent: map<string, int>, row: map<string, int>): Option<Val> {
    match e
    case Member(Convert(Parameter(ParentObject), _), n) => if n in parent then Some(IntV(parent[n])) else None
    case Member(Parameter(WhereRow), n) => if n in row then Some(IntV(row[n])) else None
    case Constant(v) => Some(IntV(v))
    case Equal(l, r) =>
      (match (Eval(l, parent, row), Eval(r, parent, row))
       case (Some(a), Some(b)) => Some(BoolV(a == b))
       case _ => None)
    case AndAlso(l, r) =>
      (match Eval(l, parent, row)
       case Some(BoolV(false)) => Some(BoolV(false))
       case Some(BoolV(true)) =>
         (match Eval(r, parent, row)
          case Some(BoolV(b)) => Some(BoolV(b))
          case _ => None)
       case _ => None)
    case _ => None
  }
}

=== FILE: load_with.dfy ===
/** Eager-load chains: which load-with chains an association inherits from
    its parent, and the member-access path a chain becomes in the per-row
    query. */
module LoadWithChains {
  import opened Wrappers
  import opened SqlModel
  import opened LinqModel

  /** A navigation member; `isEnumerable` says its type is a sequence type. */
  datatype MemberInfo = MemberInfo(name: string, declaringType: TypeTag, isEnumerable: bool)

  predicate SameMember(a: MemberInfo, b: MemberInfo) {
    a.name == b.name && a.declaringType == b.declaringType
  }

  /** One load-with entry of the parent, grouped by its first member, with
      the chains that continue after it (`None` when nothing continues). */
  datatype LoadWithItem = LoadWithItem(member: MemberInfo, next: Option<seq<seq<MemberInfo>>>)

  function FirstMatch(items: seq<LoadWithItem>, member: MemberInfo): (r: Option<nat>)
    ensures r.Some? ==> r.value < |items| && SameMember(items[r.value].member, member)
    ensures r.Some? ==> forall j :: 0 <= j < r.value ==> !SameMember(items[j].member, member)
    ensures r.None? ==> forall j :: 0 <= j < |items| ==> !SameMember(items[j].member, member)
  {
    if |items| == 0 then None
    else if SameMember(items[0].member, member) then Some(0)
    else match FirstMatch(items[1..], member)
      case None => None
      case Some(k) => Some(k + 1)
  }

  /** The load-with chains of this association: the cached ones if already
      known, else the continuation of the first parent entry for this
      association's member. */
  function GetLoadWith(cached: Option<seq<seq<MemberInfo>>>, parentItems: Option<seq<LoadWithItem>>, member: MemberInfo)
    : (r: Option<seq<seq<MemberInfo>>>)
    ensures cached.Some? ==> r == cached
    ensures cached.None? && parentItems.None? ==> r.None?
    ensures cached.None? && parentItems.Some? ==>
      forall i :: 0 <= i < |parentItems.value| && SameMember(parentItems.value[i].member, member)
                  && (forall j :: 0 <= j < i ==> !SameMember(parentItems.value[j].member, member))
                  ==> r == parentItems.value[i].next
    ensures cached.None? && r.Some? ==>
      exists i :: 0 <= i < |parentItems.value| && SameMember(parentItems.value[i].member, member)
                  && r == parentItems.value[i].next
  {
    if cached.Some? then cached
    else match parentItems
      case None => None
      case Some(items) =>
        match FirstMatch(items, member)
        case None => None
        case Some(i) => items[i].next
  }

  // ---- the member path of one chain -----------------------------------------

  datatype Step = Item | Access(name: string)

  /** The steps from the load-with row parameter to `e`, if `e` is such a path. */
  function Path(e: LExpr): Option<seq<Step>> {
    match e
    case Parameter(LoadWithRow) => Some([])
    case GetItem(o) => (match Path(o) case Some(p) => Some(p + [Item]) case None => None)
    case Member(o, n) => (match Path(o) case Some(p) => Some(p + [Access(n)]) case None => None)
    case _ => None
  }

  /** The steps for member `i`: an element step when the member before it is
      collection-typed, then the member access. */
  function Segment(members: seq<MemberInfo>, i: nat): seq<Step>
    requires i < |members|
  {
    (if i > 0 && members[i - 1].isEnumerable then [Item] else []) + [Access(members[i].name)]
  }

  /** The segments of the first `n` members, in order. */
  function Segments(members: seq<MemberInfo>, n: nat): seq<Step>
    requires n <= |members|
  {
    if n == 0 then [] else Segments(members, n - 1) + Segment(members, n - 1)
  }

  /** Builds the lambda body for one chain: member accesses from the row
      parameter, with an element step after every collection-typed member
      that is followed by another. */
  method LoadWithPath(members: seq<MemberInfo>) returns (r: LExpr)
    ensures Closed(r, {LoadWithRow})
    ensures |members| == 0 <==> r == Parameter(LoadWithRow)
    ensures |members| > 0 ==> r.Member? && r.name == members[|members| - 1].name
    ensures Path(r) == Some(Segments(members, |members|))
  {
    r := Parameter(LoadWithRow);
    var isPrevList := false;
    var i := 0;
    while i < |members|
      invariant 0 <= i <= |members|
      invariant Path(r) == Some(Segments(members, i))
      invariant i == 0 <==> r == Parameter(LoadWithRow)
      invariant i > 0 ==> r.Member? && r.name == members[i - 1].name
      invariant Closed(r, {LoadWithRow})
      invariant isPrevList <==> i > 0 && members[i - 1].isEnumerable
    {
      ghost var before := Segments(members, i);
      if isPrevList {
        r := GetItem(r);
        assert Path(r) == Some(before + [Item]);
      }
      r := Member(r, members[i].name);
      assert Path(r).value == before + Segment(members, i);
      isPrevList := members[i].isEnumerable;
      i := i + 1;
    }
  }

  /** Number of element steps in a path. */
  function CountItems(p: seq<Step>): nat {
    if |p| == 0 then 0 else (if p[0] == Item then 1 else 0) + CountItems(p[1..])
  }

  /** Number of collection-typed members among the first `n` that are
      followed by another member. */
  function ListMembersBefore(members: seq<MemberInfo>, n: nat): nat
    requires n <= |members|
  {
    if n <= 1 then 0 else ListMembersBefore(members, n - 1) + (if members[n - 2].isEnumerable then 1 else 0)
  }

  lemma {:induction false} CountItemsAppend(p: seq<Step>, q: seq<Step>)
    ensures CountItems(p + q) == CountItems(p) + CountItems(q)
  {
    if |p| == 0 {
      assert p + q == q;
    } else {
      assert (p + q)[1..] == p[1..] + q;
      CountItemsAppend(p[1..], q);
    }
  }

  /** The element steps of one member's segment. */
  lemma SegmentItems(members: seq<MemberInfo>, i: nat)
    requires i < |members|
    ensures CountItems(Segment(members, i)) == (if i > 0 && members[i - 1].isEnumerable then 1 else 0)
    ensures |Segment(members, i)| == 1 + (if i > 0 && members[i - 1].isEnumerable then 1 else 0)
  {
    var access: seq<Step> := [Access(members[i].name)];
    assert CountItems(access) == 0 by {
      assert access[1..] == [];
    }
    if i > 0 && members[i - 1].isEnumerable {
      assert Segment(members, i) == [Item] + access;
      CountItemsAppend([Item], access);
      assert CountItems([Item]) == 1 by {
        assert [Item][1..] == [];
      }
    } else {
      assert Segment(members, i) == access;
    }
  }

  /** A chain of `n` members has exactly `n` member accesses plus one
      element step per collection-typed member that is not the last. */
  lemma {:induction false} PathLength(members: seq<MemberInfo>, n: nat)
    requires n <= |members|
    ensures CountItems(Segments(members, n)) == ListMembersBefore(members, n)
    ensures |Segments(members, n)| == n + ListMembersBefore(members, n)
  {
    if n > 0 {
      PathLength(members, n - 1);
      SegmentItems(members, n - 1);
      CountItemsAppend(Segments(members, n - 1), Segment(members, n - 1));
    }
  }
}

=== FILE: merge.dfy ===
/** Inlining a custom association query: the query built from the
    association's query method is merged into the parent's query as joins
    on the parent's first table source, replacing the placeholder table that
    stood for the parent inside the built query. */
module MergeEngine {
  import opened Wrappers
  import opened SqlModel
  import opened Rewrite

  // ---- owner table lookup ---------------------------------------------------

  /** A mapped table structurally equal to the parent's table. */
  predicate StructuralMatch(t: TableSource, parent: SqlTable) {
    t.source.Table? && IsEqualTables(t.source.table, parent)
  }

  /** A mapped table of the parent's object type. */
  predicate TypeMatch(t: TableSource, parent: SqlTable) {
    t.source.Table? && t.source.table.objectType == parent.objectType
  }

  predicate Matches(t: TableSource, parent: SqlTable, byType: bool) {
    if byType then TypeMatch(t, parent) else StructuralMatch(t, parent)
  }

  /** First index at or after `from` whose table matches. */
  function FindFirst(tables: seq<TableSource>, parent: SqlTable, byType: bool, from: nat): (r: Option<nat>)
    requires from <= |tables|
    decreases |tables| - from
    ensures r.Some? ==> from <= r.value < |tables| && Matches(tables[r.value], parent, byType)
    ensures r.Some? ==> forall j :: from <= j < r.value ==> !Matches(tables[j], parent, byType)
    ensures r.None? ==> forall j :: from <= j < |tables| ==> !Matches(tables[j], parent, byType)
  {
    if from == |tables| then None
    else if Matches(tables[from], parent, byType) then Some(from)
    else FindFirst(tables, parent, byType, from + 1)
  }

  /** Locates the placeholder that stands for the parent in the built query:
      the first structurally equal table, else the first table of the same
      object type. */
  function FindOwner(tables: seq<TableSource>, parent: SqlTable): (r: Result<nat, Error>)
    ensures |tables| == 0 ==> r == Failure(CannotInline)
    ensures |tables| > 0 && r.Failure? ==> r.error == OwnerTableNotFound
    ensures r.Failure? <==> |tables| == 0 || forall j :: 0 <= j < |tables| ==> !TypeMatch(tables[j], parent)
    ensures r.Success? ==> r.value < |tables| && tables[r.value].source.Table?
    ensures r.Success? && (exists j :: 0 <= j < |tables| && StructuralMatch(tables[j], parent)) ==>
      StructuralMatch(tables[r.value], parent) && forall j :: 0 <= j < r.value ==> !StructuralMatch(tables[j], parent)
    ensures r.Success? && (forall j :: 0 <= j < |tables| ==> !StructuralMatch(tables[j], parent)) ==>
      TypeMatch(tables[r.value], parent) && forall j :: 0 <= j < r.value ==> !TypeMatch(tables[j], parent)
  {
    if |tables| < 1 then Failure(CannotInline)
    else match FindFirst(tables, parent, false, 0)
      case Some(i) => Success(i)
      case None =>
        match FindFirst(tables, parent, true, 0)
        case Some(i) => Success(i)
        case None => Failure(OwnerTableNotFound)
  }

  // ---- join promotion ---------------------------------------------------------

  /** An optional association turns the placeholder's inner joins into left
      joins and its cross applies into outer applies. */
  function Promote(k: JoinKind): JoinKind {
    match k
    case Inner => Left
    case CrossApply => OuterApply
    case _ => k
  }

  /** Every join promoted and marked weak; count, order, tables and
      conditions kept. */
  function PromoteJoins(js: seq<JoinedTable>): (r: seq<JoinedTable>)
    ensures |r| == |js|
    ensures forall i :: 0 <= i < |js| ==> r[i].weak && r[i].table == js[i].table && r[i].condition == js[i].condition
    ensures forall i :: 0 <= i < |js| ==> r[i].kind != Inner && r[i].kind != CrossApply
    ensures forall i :: 0 <= i < |js| ==> (js[i].kind == Inner ==> r[i].kind == Left)
    ensures forall i :: 0 <= i < |js| ==> (js[i].kind == CrossApply ==> r[i].kind == OuterApply)
    ensures forall i :: 0 <= i < |js| ==> (js[i].kind != Inner && js[i].kind != CrossApply ==> r[i].kind == js[i].kind)
  {
    seq(|js|, i requires 0 <= i < |js| => js[i].(kind := Promote(js[i].kind), weak := true))
  }

  /** Promoting twice is promoting once. */
  lemma PromoteJoinsIdempotent(js: seq<JoinedTable>)
    ensures PromoteJoins(PromoteJoins(js)) == PromoteJoins(js)
  {
    var once := PromoteJoins(js);
    var twice := PromoteJoins(once);
    forall i | 0 <= i < |js|
      ensures twice[i] == once[i]
    {
      assert once[i].kind != Inner && once[i].kind != CrossApply;
    }
  }

  /** A promoted join can always leave its right side missing, unless it was
      a right, full or automatic join to begin with. */
  lemma PromotedJoinIsOuter(js: seq<JoinedTable>, i: nat)
    requires i < |js|
    requires js[i].kind in {Inner, Left, CrossApply, OuterApply}
    ensures IsOuter(PromoteJoins(js)[i].kind)
  {
  }

  // ---- the merge ----------------------------------------------------------------

  /** The merge result: the parent's updated query, the join that now stands
      for the association (the first spliced join) and the field map. */
  datatype Merged = Merged(query: SelectQuery, primaryJoin: Option<JoinedTable>, replaceMap: ReplaceMap, placeholder: SqlTable)

  /** The joins of the placeholder, promoted when the association is optional. */
  function SplicedJoins(placeholder: TableSource, left: bool): seq<JoinedTable> {
    if left then PromoteJoins(placeholder.joins) else placeholder.joins
  }

  /** The owner table source with the spliced joins appended after its own,
      then walked with the field map. */
  function SpliceOwner(owner: TableSource, spliced: seq<JoinedTable>, m: ReplaceMap): (r: TableSource)
    ensures r.alias == owner.alias
    ensures owner.source.Table? ==> r.source == owner.source
    ensures owner.source.Nested? ==> r.source == Nested(RewriteQuery(owner.source.query, m))
    ensures |r.joins| == |owner.joins| + |spliced|
    ensures forall i :: 0 <= i < |owner.joins| ==> r.joins[i] == RewriteJoin(owner.joins[i], m)
    ensures forall i :: 0 <= i < |spliced| ==> r.joins[|owner.joins| + i] == RewriteJoin(spliced[i], m)
  {
    var joined := owner.(joins := owner.joins + spliced);
    var r := RewriteSource(joined, m);
    RewriteSourceJoins(joined, m);
    assert forall i :: 0 <= i < |owner.joins| ==> joined.joins[i] == owner.joins[i];
    assert forall i :: 0 <= i < |spliced| ==> joined.joins[|owner.joins| + i] == spliced[i];
    r
  }

  /** Merges `built` (the tables of the query built from the association's
      query method) into `parentQuery`, whose first table source receives
      the placeholder's joins; the other tables of `built` follow the
      parent's own tables. */
  function MergeAssociationQuery(parentQuery: SelectQuery, parentTable: SqlTable, built: seq<TableSource>, left: bool): (r: Result<Merged, Error>)
    requires |parentQuery.from| > 0
    ensures FindOwner(built, parentTable).Failure? ==> r == Failure(FindOwner(built, parentTable).error)
    ensures FindOwner(built, parentTable).Success? ==>
      var ph := built[FindOwner(built, parentTable).value].source.table;
      && (r.Failure? <==> FieldMap(ph, parentTable).Failure?)
      && (r.Failure? ==> r.error == FieldMap(ph, parentTable).error)
    ensures r.Success? ==> |built| > 0 && |r.value.query.from| == |parentQuery.from| + |built| - 1
    ensures r.Success? ==>
      var idx := FindOwner(built, parentTable).value;
      && built[idx].source == Table(r.value.placeholder)
      && ReplacesWith(r.value.replaceMap, r.value.placeholder, parentTable)
      && r.value.query.from[0] == SpliceOwner(parentQuery.from[0], SplicedJoins(built[idx], left), r.value.replaceMap)
      && r.value.query.from[1..] == parentQuery.from[1..] + (built[..idx] + built[idx + 1..])
      && r.value.query.where == parentQuery.where
      && r.value.query.columns == parentQuery.columns
      && r.value.primaryJoin ==
           (if |built[idx].joins| > 0 then Some(r.value.query.from[0].joins[|parentQuery.from[0].joins|]) else None)
  {
    var idx :- FindOwner(built, parentTable);
    var ph := built[idx];
    var m :- FieldMap(ph.source.table, parentTable);
    var owner' := SpliceOwner(parentQuery.from[0], SplicedJoins(ph, left), m);
    var primary := if |ph.joins| > 0 then Some(owner'.joins[|parentQuery.from[0].joins|]) else None;
    var from := [owner'] + parentQuery.from[1..] + (built[..idx] + built[idx + 1..]);
    assert from[1..] == parentQuery.from[1..] + (built[..idx] + built[idx + 1..]);
    Success(Merged(parentQuery.(from := from), primary, m, ph.source.table))
  }

  /** The owner keeps its own joins in front, rewritten, and receives the
      placeholder's joins behind them in their order, promoted when the
      association is optional; the first of them is the association's join. */
  lemma MergeSplicesJoins(parentQuery: SelectQuery, parentTable: SqlTable, built: seq<TableSource>, left: bool)
    requires |parentQuery.from| > 0
    requires MergeAssociationQuery(parentQuery, parentTable, built, left).Success?
    ensures var r := MergeAssociationQuery(parentQuery, parentTable, built, left).value;
      var ph := built[FindOwner(built, parentTable).value];
      var owner := parentQuery.from[0];
      var joins := r.query.from[0].joins;
      && (owner.source.Table? ==> r.query.from[0].source == owner.source)
      && (owner.source.Nested? ==> r.query.from[0].source == Nested(RewriteQuery(owner.source.query, r.replaceMap)))
      && |joins| == |owner.joins| + |ph.joins|
      && (forall i :: 0 <= i < |owner.joins| ==> joins[i] == RewriteJoin(owner.joins[i], r.replaceMap))
      && (forall i :: 0 <= i < |ph.joins| ==>
            joins[|owner.joins| + i] == RewriteJoin(SplicedJoins(ph, left)[i], r.replaceMap))
      && (forall i :: 0 <= i < |ph.joins| ==>
            joins[|owner.joins| + i].kind == (if left then Promote(ph.joins[i].kind) else ph.joins[i].kind))
      && (left ==> forall i :: |owner.joins| <= i < |joins| ==> joins[i].weak)
      && (r.primaryJoin.Some? <==> |ph.joins| > 0)
      && (r.primaryJoin.Some? ==> r.primaryJoin.value == joins[|owner.joins|])
  {
    var r := MergeAssociationQuery(parentQuery, parentTable, built, left).value;
    var ph := built[FindOwner(built, parentTable).value];
    SplicedKinds(parentQuery.from[0], ph, left, r.replaceMap);
  }

  /** The kinds and weak flags of the joins spliced onto the owner. */
  lemma SplicedKinds(owner: TableSource, ph: TableSource, left: bool, m: ReplaceMap)
    ensures var joins := SpliceOwner(owner, SplicedJoins(ph, left), m).joins;
      && (forall i :: 0 <= i < |ph.joins| ==>
            joins[|owner.joins| + i].kind == (if left then Promote(ph.joins[i].kind) else ph.joins[i].kind))
      && (left ==> forall i :: |owner.joins| <= i < |joins| ==> joins[i].weak)
  {
    var n := |owner.joins|;
    var spliced := SplicedJoins(ph, left);
    var joins := SpliceOwner(owner, spliced, m).joins;
    forall i | 0 <= i < |ph.joins|
      ensures joins[n + i].kind == (if left then Promote(ph.joins[i].kind) else ph.joins[i].kind)
      ensures left ==> joins[n + i].weak
    {
      assert joins[n + i] == RewriteJoin(spliced[i], m);
    }
    forall i | n <= i < |joins|
      ensures left ==> joins[i].weak
    {
      assert joins[n + (i - n)].weak || !left;
    }
  }

  /** Positions in a list that keeps the head of `pre` and whose tail is
      the tail of `pre` followed by `b` without its `idx`-th element. */
  lemma DropIndexLayout<T>(xs: seq<T>, pre: seq<T>, b: seq<T>, idx: nat)
    requires |xs| > 0 && |pre| > 0 && idx < |b| && xs[1..] == pre[1..] + (b[..idx] + b[idx + 1..])
    ensures forall i :: 1 <= i < |pre| ==> xs[i] == pre[i]
    ensures forall i :: 0 <= i < idx ==> xs[|pre| + i] == b[i]
    ensures forall i :: idx < i < |b| ==> xs[|pre| + i - 1] == b[i]
  {
    var tail := xs[1..];
    forall i | 1 <= i < |pre|
      ensures xs[i] == pre[i]
    {
      assert xs[i] == tail[i - 1];
    }
    forall i | 0 <= i < idx
      ensures xs[|pre| + i] == b[i]
    {
      assert xs[|pre| + i] == tail[|pre| - 1 + i];
    }
    forall i | idx < i < |b|
      ensures xs[|pre| + i - 1] == b[i]
    {
      assert xs[|pre| + i - 1] == tail[|pre| + i - 2];
    }
  }

  /** The tables of the merged query: the parent's own, then those of the
      built query except the placeholder, in their order. */
  lemma MergeAppendsOtherTables(parentQuery: SelectQuery, parentTable: SqlTable, built: seq<TableSource>, left: bool)
    requires |parentQuery.from| > 0
    requires MergeAssociationQuery(parentQuery, parentTable, built, left).Success?
    ensures var r := MergeAssociationQuery(parentQuery, parentTable, built, left).value;
      var idx := FindOwner(built, parentTable).value;
      && (forall i :: 1 <= i < |parentQuery.from| ==> r.query.from[i] == parentQuery.from[i])
      && (forall i :: 0 <= i < idx ==> r.query.from[|parentQuery.from| + i] == built[i])
      && (forall i :: idx < i < |built| ==> r.query.from[|parentQuery.from| + i - 1] == built[i])
  {
    var r := MergeAssociationQuery(parentQuery, parentTable, built, left).value;
    DropIndexLayout(r.query.from, parentQuery.from, built, FindOwner(built, parentTable).value);
  }

  /** The spliced owner reads no placeholder column when neither its own
      joins nor the spliced ones read an undeclared one. */
  lemma SpliceRemovesPlaceholder(owner: TableSource, spliced: seq<JoinedTable>, m: ReplaceMap,
                                 placeholder: SqlTable, parent: SqlTable)
    requires ReplacesWith(m, placeholder, parent)
    requires placeholder.id != parent.id
    requires SourceFieldsDeclared(owner, placeholder)
    requires forall i :: 0 <= i < |spliced| ==> JoinFieldsDeclared(spliced[i], placeholder)
    ensures !SourceUsesTable(SpliceOwner(owner, spliced, m), placeholder.id)
  {
    var joined := owner.(joins := owner.joins + spliced);
    assert SourceFieldsDeclared(joined, placeholder) by {
      forall i | 0 <= i < |joined.joins|
        ensures JoinFieldsDeclared(joined.joins[i], placeholder)
      {
        if i < |owner.joins| {
          assert joined.joins[i] == owner.joins[i];
        } else {
          assert joined.joins[i] == spliced[i - |owner.joins|];
        }
      }
    }
    RewriteSourceRemovesPlaceholder(joined, m, placeholder, parent);
  }

  /** After the merge, no condition in the owner's join tree reads a
      placeholder column, provided the placeholder table is a table instance
      of its own and every placeholder column read is a declared one. */
  lemma MergeRemovesPlaceholder(parentQuery: SelectQuery, parentTable: SqlTable, built: seq<TableSource>, left: bool)
    requires |parentQuery.from| > 0
    requires MergeAssociationQuery(parentQuery, parentTable, built, left).Success?
    requires forall t :: t in built && t.source.Table? ==> t.source.table.id != parentTable.id
    requires forall t :: t in built && t.source.Table? ==>
      SourceFieldsDeclared(parentQuery.from[0], t.source.table) && SourceFieldsDeclared(t, t.source.table)
    ensures var r := MergeAssociationQuery(parentQuery, parentTable, built, left).value;
      !SourceUsesTable(r.query.from[0], r.placeholder.id)
  {
    var r := MergeAssociationQuery(parentQuery, parentTable, built, left).value;
    var ph := built[FindOwner(built, parentTable).value];
    assert ph in built;
    var spliced := SplicedJoins(ph, left);
    forall i | 0 <= i < |spliced|
      ensures JoinFieldsDeclared(spliced[i], r.placeholder)
    {
      assert JoinFieldsDeclared(ph.joins[i], r.placeholder);
    }
    SpliceRemovesPlaceholder(parentQuery.from[0], spliced, r.replaceMap, r.placeholder, parentTable);
  }

  /** Joins the owner already had are unchanged by the merge when they read
      no placeholder column. */
  lemma MergeKeepsExistingJoins(parentQuery: SelectQuery, parentTable: SqlTable, built: seq<TableSource>, left: bool)
    requires |parentQuery.from| > 0
    requires MergeAssociationQuery(parentQuery, parentTable, built, left).Success?
    requires forall t :: t in built && t.source.Table? ==> !SourceUsesTable(parentQuery.from[0], t.source.table.id)
    ensures var r := MergeAssociationQuery(parentQuery, parentTable, built, left).value;
      r.query.from[0].joins[..|parentQuery.from[0].joins|] == parentQuery.from[0].joins
  {
    var r := MergeAssociationQuery(parentQuery, parentTable, built, left).value;
    var idx := FindOwner(built, parentTable).value;
    var owner := parentQuery.from[0];
    assert built[idx] in built;
    forall i | 0 <= i < |owner.joins|
      ensures r.query.from[0].joins[i] == owner.joins[i]
    {
      assert !JoinUsesTable(owner.joins[i], r.placeholder.id);
      RewriteJoinUntouched(owner.joins[i], r.replaceMap, r.placeholder, parentTable);
    }
  }
}

=== FILE: null_guard.dfy ===
/** Null propagation for optional associations: when the association, or
    an association it hangs off, is reached through a left join or an outer
    apply, the object is materialised as null whenever all of its key
    columns read as database NULL. */
module NullGuard {
  import opened Wrappers
  import opened SqlModel

  /** A test over the row being read: `IsDBNull(i)` holds when column `i`
      is NULL. */
  datatype Guard = IsDBNull(index: nat) | AllOf(lhs: Guard, rhs: Guard)

  /** A materialisation expression: `Build(tag)` builds the associated
      object, `NullWhen` yields null instead when its guard holds. */
  datatype Materializer = Build(tag: nat) | NullWhen(guard: Guard, otherwise: Materializer)

  /** `nulls` is the set of column indexes that read as NULL in the row. */
  function EvalGuard(g: Guard, nulls: set<nat>): bool {
    match g
    case IsDBNull(i) => i in nulls
    case AllOf(l, r) => EvalGuard(l, nulls) && EvalGuard(r, nulls)
  }

  /** The materialised value: `None` is null. */
  function Read(m: Materializer, nulls: set<nat>): Option<nat> {
    match m
    case Build(tag) => Some(tag)
    case NullWhen(g, otherwise) => if EvalGuard(g, nulls) then None else Read(otherwise, nulls)
  }

  // ---- the association chain ---------------------------------------------------

  /** The chain lists, from this association up to the last enclosing
      association, the join kind of each association's join (`None` when an
      association has no join). */
  predicate OuterAt(chain: seq<Option<JoinKind>>, i: nat)
    requires i < |chain|
  {
    chain[i].Some? && IsOuter(chain[i].value)
  }

  /** Walking up the chain meets a left join or outer apply before any
      association without a join. */
  predicate ReachesOuter(chain: seq<Option<JoinKind>>) {
    exists i :: 0 <= i < |chain| && OuterAt(chain, i) && forall j :: 0 <= j < i ==> chain[j].Some?
  }

  /** Walking up the chain meets an association without a join before any
      left join or outer apply. */
  predicate ReachesMissing(chain: seq<Option<JoinKind>>) {
    exists i :: 0 <= i < |chain| && chain[i].None? && forall j :: 0 <= j < i ==> !OuterAt(chain, j) && chain[j].Some?
  }

  /** Walks the chain, stopping at the first left join or outer apply. */
  method IsLeftChain(chain: seq<Option<JoinKind>>) returns (r: Result<bool, Error>)
    ensures r.Failure? <==> ReachesMissing(chain)
    ensures r.Failure? ==> r.error == MissingJoin
    ensures r == Success(true) <==> ReachesOuter(chain)
    ensures (forall i :: 0 <= i < |chain| ==> chain[i].Some?) ==>
      r == Success(exists i :: 0 <= i < |chain| && OuterAt(chain, i))
  {
    var isLeft := false;
    var i := 0;
    while !isLeft && i < |chain|
      invariant 0 <= i <= |chain|
      invariant forall j :: 0 <= j < i ==> chain[j].Some?
      invariant isLeft <==> i > 0 && OuterAt(chain, i - 1)
      invariant forall j :: 0 <= j < i - 1 ==> !OuterAt(chain, j)
      invariant !isLeft ==> forall j :: 0 <= j < i ==> !OuterAt(chain, j)
    {
      if chain[i].None? {
        assert !ReachesOuter(chain) by {
          forall k | 0 <= k < |chain| && OuterAt(chain, k)
            ensures exists j :: 0 <= j < k && chain[j].None?
          {
            assert k > i;
          }
        }
        return Failure(MissingJoin);
      }
      isLeft := IsOuter(chain[i].value);
      i := i + 1;
    }
    if isLeft {
      assert OuterAt(chain, i - 1);
      assert !ReachesMissing(chain) by {
        forall k | 0 <= k < |chain| && chain[k].None?
          ensures exists j :: 0 <= j < k && OuterAt(chain, j)
        {
          assert k > i - 1;
        }
      }
    }
    r := Success(isLeft);
  }

  /** Wraps the materialisation `e` in a null guard over the key columns if
      the chain is outer-joined. `keys` are the key column indexes of this
      association and `toParent` their translation to the row reader's
      columns. */
  method ProcessExpression(chain: seq<Option<JoinKind>>, keys: seq<nat>, toParent: nat -> nat, e: Materializer)
    returns (r: Result<Materializer, Error>)
    ensures ReachesMissing(chain) ==> r == Failure(MissingJoin)
    ensures ReachesOuter(chain) && |keys| == 0 ==> r == Failure(MissingGuard)
    ensures !ReachesMissing(chain) && !(ReachesOuter(chain) && |keys| == 0) ==> r.Success?
    ensures r.Success? && !ReachesOuter(chain) ==> r.value == e
    ensures r.Success? && ReachesOuter(chain) ==> r.value.NullWhen? && r.value.otherwise == e
    ensures r.Success? ==> forall nulls: set<nat> ::
      Read(r.value, nulls) ==
        (if ReachesOuter(chain) && (forall k :: 0 <= k < |keys| ==> toParent(keys[k]) in nulls)
         then None else Read(e, nulls))
  {
    var isLeft :- IsLeftChain(chain);
    if !isLeft {
      return Success(e);
    }
    var cond: Option<Guard> := None;
    var k := 0;
    while k < |keys|
      invariant 0 <= k <= |keys|
      invariant cond.None? <==> k == 0
      invariant cond.Some? ==> forall nulls: set<nat> ::
        EvalGuard(cond.value, nulls) <==> forall j :: 0 <= j < k ==> toParent(keys[j]) in nulls
    {
      var test := IsDBNull(toParent(keys[k]));
      cond := if cond.None? then Some(test) else Some(AllOf(cond.value, test));
      k := k + 1;
    }
    if cond.None? {
      return Failure(MissingGuard);
    }
    r := Success(NullWhen(cond.value, e));
  }
}

=== FILE: rewrite.dfy ===
/** The field-replacement map that ties a merged association query's
    placeholder owner table to the parent's real table, and the substitution
    pass that applies it, both to a whole join tree (the walk over the owner
    table source) and to one column expression (`CorrectExpression`). */
module Rewrite {
  import opened Wrappers
  import opened SqlModel

  /** Placeholder column -> parent column. */
  type ReplaceMap = map<SqlExpr, SqlExpr>

  /** Index of the first name (in declaration order) the parent table lacks. */
  function FirstMissing(names: seq<string>, parent: SqlTable): (r: Option<nat>)
    ensures r.Some? ==> r.value < |names| && names[r.value] !in parent.fields
    ensures r.Some? ==> forall j :: 0 <= j < r.value ==> names[j] in parent.fields
    ensures r.None? ==> forall j :: 0 <= j < |names| ==> names[j] in parent.fields
  {
    if |names| == 0 then None
    else if names[0] !in parent.fields then Some(0)
    else match FirstMissing(names[1..], parent)
      case None => None
      case Some(k) => Some(k + 1)
  }

  /** `m` sends every declared column of `placeholder` to the parent column
      of the same name, and has no other entry. */
  predicate ReplacesWith(m: ReplaceMap, placeholder: SqlTable, parent: SqlTable) {
    && (forall k :: k in m ==> k.Field? && k.table == placeholder.id && k.name in placeholder.fields)
    && (forall k :: k in m ==> m[k] == Field(parent.id, k.name))
    && (forall n :: n in placeholder.fields ==> Field(placeholder.id, n) in m)
  }

  /** The map built from the placeholder's fields; looking a name up on the
      parent table fails at the first placeholder field the parent lacks. */
  function FieldMap(placeholder: SqlTable, parent: SqlTable): (r: Result<ReplaceMap, Error>)
    ensures r.Failure? <==> exists n :: n in placeholder.fields && n !in parent.fields
    ensures r.Failure? ==>
      exists i :: && 0 <= i < |placeholder.fields|
                  && r.error == ParentFieldMissing(placeholder.fields[i])
                  && placeholder.fields[i] !in parent.fields
                  && forall j :: 0 <= j < i ==> placeholder.fields[j] in parent.fields
    ensures r.Success? ==> ReplacesWith(r.value, placeholder, parent)
  {
    match FirstMissing(placeholder.fields, parent)
    case Some(i) => Failure(ParentFieldMissing(placeholder.fields[i]))
    case None => Success(map n | n in placeholder.fields :: FieldOf(placeholder, n) := FieldOf(parent, n))
  }

  /** `m` replaces fields by fields, as a field map does. */
  predicate FieldsToFields(m: ReplaceMap) {
    forall k :: k in m ==> k.Field? && m[k].Field?
  }

  /** Bottom-up substitution: children first, then the node itself is
      replaced when it is a key of the map. With a map from fields to
      fields, a mapped field becomes its image, any other field stays, an
      expression without fields is returned as it is, and the result reads
      some field exactly when the input does. */
  function RewriteExpr(e: SqlExpr, m: ReplaceMap): (r: SqlExpr)
    ensures FieldsToFields(m) && e.Field? ==> r == (if e in m then m[e] else e)
    ensures FieldsToFields(m) && !ReadsAnyField(e) ==> r == e
    ensures FieldsToFields(m) ==> (ReadsAnyField(r) <==> ReadsAnyField(e))
  {
    var e' := match e
      case Field(_, _) => e
      case Value(_) => e
      case Binary(op, l, r) => Binary(op, RewriteExpr(l, m), RewriteExpr(r, m))
      case Unary(op, a) => Unary(op, RewriteExpr(a, m));
    if e' in m then m[e'] else e'
  }

  /** One column expression of the merged query, cleaned of placeholder
      references before it is added to this context's select list. */
  function CorrectExpression(e: SqlExpr, m: ReplaceMap): (r: SqlExpr)
    ensures FieldsToFields(m) && e.Field? ==> r == (if e in m then m[e] else e)
    ensures FieldsToFields(m) && !ReadsAnyField(e) ==> r == e
    ensures FieldsToFields(m) ==> (ReadsAnyField(r) <==> ReadsAnyField(e))
  {
    RewriteExpr(e, m)
  }

  function RewriteConditions(cs: seq<Condition>, m: ReplaceMap): (r: seq<Condition>)
    ensures |r| == |cs|
    ensures forall i :: 0 <= i < |cs| ==> r[i].isNot == cs[i].isNot
  {
    seq(|cs|, i requires 0 <= i < |cs| => cs[i].(pred := RewriteExpr(cs[i].pred, m)))
  }

  /** The walk over a table source: the nested query it reads from, if any,
      and every condition of every join below it. */
  function RewriteSource(ts: TableSource, m: ReplaceMap): (r: TableSource)
    decreases ts
    ensures r.alias == ts.alias && |r.joins| == |ts.joins|
    ensures ts.source.Table? ==> r.source == ts.source
    ensures ts.source.Nested? ==> r.source == Nested(RewriteQuery(ts.source.query, m))
    ensures forall i :: 0 <= i < |ts.joins| ==>
      r.joins[i].kind == ts.joins[i].kind && r.joins[i].weak == ts.joins[i].weak
  {
    var source := match ts.source
      case Table(_) => ts.source
      case Nested(q) => Nested(RewriteQuery(q, m));
    TableSource(source, ts.alias, seq(|ts.joins|, i requires 0 <= i < |ts.joins| => RewriteJoin(ts.joins[i], m)))
  }

  /** Each join of a walked table source is the walked join. */
  lemma RewriteSourceJoins(ts: TableSource, m: ReplaceMap)
    ensures forall i :: 0 <= i < |ts.joins| ==> RewriteSource(ts, m).joins[i] == RewriteJoin(ts.joins[i], m)
  {
  }

  /** The walk over a nested query: its table sources, filter and columns. */
  function RewriteQuery(q: SelectQuery, m: ReplaceMap): (r: SelectQuery)
    decreases q
    ensures |r.from| == |q.from| && |r.where| == |q.where| && |r.columns| == |q.columns|
    ensures forall i :: 0 <= i < |q.from| ==> r.from[i].alias == q.from[i].alias
  {
    SelectQuery(seq(|q.from|, i requires 0 <= i < |q.from| => RewriteSource(q.from[i], m)),
                RewriteConditions(q.where, m),
                seq(|q.columns|, i requires 0 <= i < |q.columns| => RewriteExpr(q.columns[i], m)))
  }

  function RewriteJoin(j: JoinedTable, m: ReplaceMap): (r: JoinedTable)
    decreases j
    ensures r.kind == j.kind && r.weak == j.weak
  {
    j.(table := RewriteSource(j.table, m), condition := RewriteConditions(j.condition, m))
  }

  // ---- what the rewrite does ------------------------------------------------

  /** Reference definition: point every column of table `from` at table `to`. */
  function Rename(e: SqlExpr, from: nat, to: nat): SqlExpr {
    match e
    case Field(t, n) => Field(if t == from then to else t, n)
    case Value(_) => e
    case Binary(op, l, r) => Binary(op, Rename(l, from, to), Rename(r, from, to))
    case Unary(op, a) => Unary(op, Rename(a, from, to))
  }

  /** Substituting through the field map is renaming the placeholder table to
      the parent table: each placeholder column becomes the parent column of
      the same name and every other node stays as it was. */
  lemma {:induction false} RewriteIsRename(e: SqlExpr, m: ReplaceMap, placeholder: SqlTable, parent: SqlTable)
    requires ReplacesWith(m, placeholder, parent)
    requires ExprFieldsDeclared(e, placeholder)
    ensures RewriteExpr(e, m) == Rename(e, placeholder.id, parent.id)
  {
    match e
    case Field(t, n) =>
      if t == placeholder.id {
        assert Field(t, n) in m;
      }
    case Value(_) =>
    case Binary(op, l, r) =>
      RewriteIsRename(l, m, placeholder, parent);
      RewriteIsRename(r, m, placeholder, parent);
    case Unary(op, a) =>
      RewriteIsRename(a, m, placeholder, parent);
  }

  lemma {:induction false} RenameRemovesTable(e: SqlExpr, from: nat, to: nat)
    requires from != to
    ensures !ExprUsesTable(Rename(e, from, to), from)
    ensures forall id :: id != from && id != to ==> (ExprUsesTable(Rename(e, from, to), id) <==> ExprUsesTable(e, id))
  {
    match e
    case Field(_, _) =>
    case Value(_) =>
    case Binary(_, l, r) =>
      RenameRemovesTable(l, from, to);
      RenameRemovesTable(r, from, to);
    case Unary(_, a) =>
      RenameRemovesTable(a, from, to);
  }

  /** An expression that reads no placeholder column is left untouched. */
  lemma {:induction false} RewriteUntouched(e: SqlExpr, m: ReplaceMap, placeholder: SqlTable, parent: SqlTable)
    requires ReplacesWith(m, placeholder, parent)
    requires !ExprUsesTable(e, placeholder.id)
    ensures RewriteExpr(e, m) == e
  {
    match e
    case Field(_, _) =>
    case Value(_) =>
    case Binary(_, l, r) =>
      RewriteUntouched(l, m, placeholder, parent);
      RewriteUntouched(r, m, placeholder, parent);
    case Unary(_, a) =>
      RewriteUntouched(a, m, placeholder, parent);
  }

  /** After the rewrite no placeholder column is left in the expression. */
  lemma {:induction false} RewriteRemovesPlaceholder(e: SqlExpr, m: ReplaceMap, placeholder: SqlTable, parent: SqlTable)
    requires ReplacesWith(m, placeholder, parent)
    requires placeholder.id != parent.id
    requires ExprFieldsDeclared(e, placeholder)
    ensures !ExprUsesTable(RewriteExpr(e, m), placeholder.id)
  {
    RewriteIsRename(e, m, placeholder, parent);
    RenameRemovesTable(e, placeholder.id, parent.id);
  }

  /** Rewriting a second time changes nothing. */
  lemma {:induction false} RewriteIdempotent(e: SqlExpr, m: ReplaceMap, placeholder: SqlTable, parent: SqlTable)
    requires ReplacesWith(m, placeholder, parent)
    requires placeholder.id != parent.id
    requires ExprFieldsDeclared(e, placeholder)
    ensures RewriteExpr(RewriteExpr(e, m), m) == RewriteExpr(e, m)
  {
    RewriteRemovesPlaceholder(e, m, placeholder, parent);
    RewriteUntouched(RewriteExpr(e, m), m, placeholder, parent);
  }

  // ---- the walk over a join tree ---------------------------------------------

  lemma RewriteConditionsRemove(cs: seq<Condition>, m: ReplaceMap, placeholder: SqlTable, parent: SqlTable)
    requires ReplacesWith(m, placeholder, parent)
    requires placeholder.id != parent.id
    requires ConditionsFieldsDeclared(cs, placeholder)
    ensures !ConditionsUseTable(RewriteConditions(cs, m), placeholder.id)
  {
    var r := RewriteConditions(cs, m);
    forall i | 0 <= i < |cs|
      ensures !ExprUsesTable(r[i].pred, placeholder.id)
    {
      RewriteRemovesPlaceholder(cs[i].pred, m, placeholder, parent);
    }
  }

  /** After the walk, no condition or column anywhere under the table
      source, nested queries included, reads a placeholder column. */
  lemma {:induction false} RewriteSourceRemovesPlaceholder(ts: TableSource, m: ReplaceMap, placeholder: SqlTable, parent: SqlTable)
    requires ReplacesWith(m, placeholder, parent)
    requires placeholder.id != parent.id
    requires SourceFieldsDeclared(ts, placeholder)
    ensures !SourceUsesTable(RewriteSource(ts, m), placeholder.id)
    decreases ts, 1
  {
    var r := RewriteSource(ts, m);
    if ts.source.Nested? {
      RewriteQueryRemovesPlaceholder(ts.source.query, m, placeholder, parent);
    }
    forall i | 0 <= i < |ts.joins|
      ensures !JoinUsesTable(r.joins[i], placeholder.id)
    {
      RewriteJoinRemovesPlaceholder(ts.joins[i], m, placeholder, parent);
    }
  }

  lemma {:induction false} RewriteQueryRemovesPlaceholder(q: SelectQuery, m: ReplaceMap, placeholder: SqlTable, parent: SqlTable)
    requires ReplacesWith(m, placeholder, parent)
    requires placeholder.id != parent.id
    requires QueryFieldsDeclared(q, placeholder)
    ensures !QueryUsesTable(RewriteQuery(q, m), placeholder.id)
    decreases q, 1
  {
    var r := RewriteQuery(q, m);
    forall i | 0 <= i < |q.from|
      ensures !SourceUsesTable(r.from[i], placeholder.id)
    {
      RewriteSourceRemovesPlaceholder(q.from[i], m, placeholder, parent);
    }
    RewriteConditionsRemove(q.where, m, placeholder, parent);
    forall i | 0 <= i < |q.columns|
      ensures !ExprUsesTable(r.columns[i], placeholder.id)
    {
      RewriteRemovesPlaceholder(q.columns[i], m, placeholder, parent);
    }
  }

  lemma {:induction false} RewriteJoinRemovesPlaceholder(j: JoinedTable, m: ReplaceMap, placeholder: SqlTable, parent: SqlTable)
    requires ReplacesWith(m, placeholder, parent)
    requires placeholder.id != parent.id
    requires JoinFieldsDeclared(j, placeholder)
    ensures !JoinUsesTable(RewriteJoin(j, m), placeholder.id)
    decreases j, 1
  {
    RewriteConditionsRemove(j.condition, m, placeholder, parent);
    RewriteSourceRemovesPlaceholder(j.table, m, placeholder, parent);
  }

  lemma RewriteConditionsUntouched(cs: seq<Condition>, m: ReplaceMap, placeholder: SqlTable, parent: SqlTable)
    requires ReplacesWith(m, placeholder, parent)
    requires !ConditionsUseTable(cs, placeholder.id)
    ensures RewriteConditions(cs, m) == cs
  {
    var r := RewriteConditions(cs, m);
    forall i | 0 <= i < |cs|
      ensures r[i] == cs[i]
    {
      RewriteUntouched(cs[i].pred, m, placeholder, parent);
    }
  }

  /** A table source whose tree reads no placeholder column is left
      untouched. */
  lemma {:induction false} RewriteSourceUntouched(ts: TableSource, m: ReplaceMap, placeholder: SqlTable, parent: SqlTable)
    requires ReplacesWith(m, placeholder, parent)
    requires !SourceUsesTable(ts, placeholder.id)
    ensures RewriteSource(ts, m) == ts
    decreases ts, 1
  {
    var r := RewriteSource(ts, m);
    if ts.source.Nested? {
      RewriteQueryUntouched(ts.source.query, m, placeholder, parent);
    }
    forall i | 0 <= i < |ts.joins|
      ensures r.joins[i] == ts.joins[i]
    {
      RewriteJoinUntouched(ts.joins[i], m, placeholder, parent);
    }
  }

  lemma {:induction false} RewriteQueryUntouched(q: SelectQuery, m: ReplaceMap, placeholder: SqlTable, parent: SqlTable)
    requires ReplacesWith(m, placeholder, parent)
    requires !QueryUsesTable(q, placeholder.id)
    ensures RewriteQuery(q, m) == q
    decreases q, 1
  {
    var r := RewriteQuery(q, m);
    forall i | 0 <= i < |q.from|
      ensures r.from[i] == q.from[i]
    {
      RewriteSourceUntouched(q.from[i], m, placeholder, parent);
    }
    RewriteConditionsUntouched(q.where, m, placeholder, parent);
    forall i | 0 <= i < |q.columns|
      ensures r.columns[i] == q.columns[i]
    {
      RewriteUntouched(q.columns[i], m, placeholder, parent);
    }
  }

  lemma {:induction false} RewriteJoinUntouched(j: JoinedTable, m: ReplaceMap, placeholder: SqlTable, parent: SqlTable)
    requires ReplacesWith(m, placeholder, parent)
    requires !JoinUsesTable(j, placeholder.id)
    ensures RewriteJoin(j, m) == j
    decreases j, 1
  {
    RewriteConditionsUntouched(j.condition, m, placeholder, parent);
    RewriteSourceUntouched(j.table, m, placeholder, parent);
  }
}

=== FILE: source_lookup.dfy ===
/** Finding a table instance in a query's FROM clause and adding a join to
    the table source found. The search is depth first: a table source
    itself, then the table sources of its joins in order, then the table
    sources of the nested query it reads from, so the table of an
    association that hangs off another association is found inside the
    join that brought it in. */
module SourceLookup {
  import opened Wrappers
  import opened SqlModel

  /** One step down from a table source: into the table source of its
      `i`-th join, or into the `i`-th table source of its nested query. */
  datatype Step = ViaJoin(i: nat) | ViaNested(i: nat)

  /** A table source of a FROM clause: the top-level entry `top`, then the
      steps below it. */
  datatype Location = Location(top: nat, path: seq<Step>)

  /** The table source reached from `ts` along `path`, if the path exists. */
  function SourceAt(ts: TableSource, path: seq<Step>): Option<TableSource>
    decreases |path|
  {
    if |path| == 0 then Some(ts)
    else match path[0]
      case ViaJoin(i) =>
        if i < |ts.joins| then SourceAt(ts.joins[i].table, path[1..]) else None
      case ViaNested(i) =>
        if ts.source.Nested? && i < |ts.source.query.from| then SourceAt(ts.source.query.from[i], path[1..]) else None
  }

  /** `ts`, or a table source anywhere below it, reads table instance `t`. */
  predicate Contains(ts: TableSource, t: SqlTable)
    decreases ts
  {
    || ts.source == Table(t)
    || (exists i :: 0 <= i < |ts.joins| && Contains(ts.joins[i].table, t))
    || (ts.source.Nested? && exists i :: 0 <= i < |ts.source.query.from| && Contains(ts.source.query.from[i], t))
  }

  /** `path` leads from `ts` to a table source reading `t`. */
  predicate Reaches(ts: TableSource, path: seq<Step>, t: SqlTable) {
    SourceAt(ts, path).Some? && SourceAt(ts, path).value.source == Table(t)
  }

  lemma SourceAtStep(ts: TableSource, s: Step, rest: seq<Step>)
    ensures SourceAt(ts, [s] + rest) ==
      match s
      case ViaJoin(i) => if i < |ts.joins| then SourceAt(ts.joins[i].table, rest) else None
      case ViaNested(i) =>
        if ts.source.Nested? && i < |ts.source.query.from| then SourceAt(ts.source.query.from[i], rest) else None
  {
    assert ([s] + rest)[0] == s;
    assert ([s] + rest)[1..] == rest;
  }

  /** The path to the first table source under `ts` reading `t`. */
  function FindIn(ts: TableSource, t: SqlTable): (r: Option<seq<Step>>)
    decreases ts, 2, 0
    ensures r.Some? ==> Reaches(ts, r.value, t)
    ensures r.None? <==> !Contains(ts, t)
    ensures ts.source == Table(t) ==> r == Some([])
    ensures r.Some? && |r.value| > 0 ==> ts.source != Table(t)
    ensures r.Some? && |r.value| > 0 && r.value[0].ViaJoin? ==>
      forall j :: 0 <= j < r.value[0].i ==> !Contains(ts.joins[j].table, t)
    ensures r.Some? && |r.value| > 0 && r.value[0].ViaNested? ==>
      && ts.source.Nested?
      && (forall j :: 0 <= j < |ts.joins| ==> !Contains(ts.joins[j].table, t))
      && (forall j :: 0 <= j < r.value[0].i ==> !Contains(ts.source.query.from[j], t))
  {
    if ts.source == Table(t) then Some([])
    else match FindInJoins(ts, t, 0)
      case Some(p) => Some(p)
      case None => if ts.source.Nested? then FindInNested(ts, t, 0) else None
  }

  /** The search through the joins of `ts` from the `start`-th on. */
  function FindInJoins(ts: TableSource, t: SqlTable, start: nat): (r: Option<seq<Step>>)
    requires start <= |ts.joins|
    decreases ts, 1, |ts.joins| - start
    ensures r.Some? ==>
      && |r.value| > 0 && r.value[0].ViaJoin? && start <= r.value[0].i < |ts.joins|
      && Reaches(ts, r.value, t)
      && forall j :: start <= j < r.value[0].i ==> !Contains(ts.joins[j].table, t)
    ensures r.None? <==> forall j :: start <= j < |ts.joins| ==> !Contains(ts.joins[j].table, t)
  {
    if start == |ts.joins| then None
    else match FindIn(ts.joins[start].table, t)
      case Some(p) =>
        SourceAtStep(ts, ViaJoin(start), p);
        Some([ViaJoin(start)] + p)
      case None => FindInJoins(ts, t, start + 1)
  }

  /** The search through the nested query of `ts` from its `start`-th table
      source on. */
  function FindInNested(ts: TableSource, t: SqlTable, start: nat): (r: Option<seq<Step>>)
    requires ts.source.Nested? && start <= |ts.source.query.from|
    decreases ts, 0, |ts.source.query.from| - start
    ensures r.Some? ==>
      && |r.value| > 0 && r.value[0].ViaNested? && start <= r.value[0].i < |ts.source.query.from|
      && Reaches(ts, r.value, t)
      && forall j :: start <= j < r.value[0].i ==> !Contains(ts.source.query.from[j], t)
    ensures r.None? <==> forall j :: start <= j < |ts.source.query.from| ==> !Contains(ts.source.query.from[j], t)
  {
    if start == |ts.source.query.from| then None
    else match FindIn(ts.source.query.from[start], t)
      case Some(p) =>
        SourceAtStep(ts, ViaNested(start), p);
        Some([ViaNested(start)] + p)
      case None => FindInNested(ts, t, start + 1)
  }

  /** The FROM clause's lookup by table: the first top-level entry, from
      `start` on, under which `t` is found, and the path to it there. */
  function FindSource(from: seq<TableSource>, t: SqlTable, start: nat): (r: Option<Location>)
    requires start <= |from|
    decreases |from| - start
    ensures r.Some? ==> start <= r.value.top < |from| && Reaches(from[r.value.top], r.value.path, t)
    ensures r.Some? ==> FindIn(from[r.value.top], t) == Some(r.value.path)
    ensures r.Some? ==> forall j :: start <= j < r.value.top ==> !Contains(from[j], t)
    ensures r.None? <==> forall j :: start <= j < |from| ==> !Contains(from[j], t)
  {
    if start == |from| then None
    else match FindIn(from[start], t)
      case Some(p) => Some(Location(start, p))
      case None => FindSource(from, t, start + 1)
  }

  // ---- adding a join ------------------------------------------------------------

  /** `ts` with `join` appended to the joins of the table source at `path`. */
  function AppendAt(ts: TableSource, path: seq<Step>, join: JoinedTable): (r: TableSource)
    requires SourceAt(ts, path).Some?
    decreases |path|
    ensures r.alias == ts.alias && r.source.Table? == ts.source.Table?
    ensures SourceAt(r, path) == Some(SourceAt(ts, path).value.(joins := SourceAt(ts, path).value.joins + [join]))
  {
    if |path| == 0 then ts.(joins := ts.joins + [join])
    else match path[0]
      case ViaJoin(i) =>
        var j := ts.joins[i];
        ts.(joins := ts.joins[i := j.(table := AppendAt(j.table, path[1..], join))])
      case ViaNested(i) =>
        var q := ts.source.query;
        ts.(source := Nested(q.(from := q.from[i := AppendAt(q.from[i], path[1..], join)])))
  }

  /** `ts` with the last join of the table source at `path` removed: the
      inverse of `AppendAt`. */
  function DropLastAt(ts: TableSource, path: seq<Step>): (r: TableSource)
    requires SourceAt(ts, path).Some? && |SourceAt(ts, path).value.joins| > 0
    decreases |path|
    ensures var target := SourceAt(ts, path).value;
      SourceAt(r, path) == Some(target.(joins := target.joins[..|target.joins| - 1]))
  {
    if |path| == 0 then ts.(joins := ts.joins[..|ts.joins| - 1])
    else match path[0]
      case ViaJoin(i) =>
        var j := ts.joins[i];
        ts.(joins := ts.joins[i := j.(table := DropLastAt(j.table, path[1..]))])
      case ViaNested(i) =>
        var q := ts.source.query;
        ts.(source := Nested(q.(from := q.from[i := DropLastAt(q.from[i], path[1..])])))
  }

  /** Removing the join just appended gives back the table source: the
      append changes nothing but the target's join list, not even on the
      way down to the target. */
  lemma {:induction false} DropLastAfterAppend(ts: TableSource, path: seq<Step>, join: JoinedTable)
    requires SourceAt(ts, path).Some?
    ensures DropLastAt(AppendAt(ts, path, join), path) == ts
    decreases |path|
  {
    if |path| == 0 {
      assert (ts.joins + [join])[..|ts.joins|] == ts.joins;
    } else {
      match path[0]
      case ViaJoin(i) =>
        DropLastAfterAppend(ts.joins[i].table, path[1..], join);
        assert ts.joins[i := ts.joins[i]] == ts.joins;
      case ViaNested(i) =>
        var q := ts.source.query;
        DropLastAfterAppend(q.from[i], path[1..], join);
        assert q.from[i := q.from[i]] == q.from;
    }
  }

  /** A table source that reads `join` last at the target and is `ts` once
      that join is removed is the append of `join` to `ts`. */
  lemma {:induction false} AppendAtDetermined(ts: TableSource, x: TableSource, path: seq<Step>, join: JoinedTable)
    requires SourceAt(ts, path).Some? && SourceAt(x, path).Some?
    requires SourceAt(x, path).value.joins == SourceAt(ts, path).value.joins + [join]
    requires DropLastAt(x, path) == ts
    ensures x == AppendAt(ts, path, join)
    decreases |path|
  {
    if |path| == 0 {
      assert x.joins == ts.joins + [join];
    } else {
      match path[0]
      case ViaJoin(i) =>
        AppendAtDetermined(ts.joins[i].table, x.joins[i].table, path[1..], join);
        assert x.joins == ts.joins[i := ts.joins[i].(table := AppendAt(ts.joins[i].table, path[1..], join))];
      case ViaNested(i) =>
        var q := x.source.query;
        AppendAtDetermined(ts.source.query.from[i], q.from[i], path[1..], join);
        assert q.from == ts.source.query.from[i := AppendAt(ts.source.query.from[i], path[1..], join)];
    }
  }

  /** `p` is `path` or a table source above it. */
  predicate OnTheWay(p: seq<Step>, path: seq<Step>) {
    |p| <= |path| && path[..|p|] == p
  }

  /** Every table source off the way to the target is as it was: those
      beside the path and those below the target, whose existing joins the
      appended one comes after. */
  lemma {:induction false} AppendAtElsewhere(ts: TableSource, path: seq<Step>, join: JoinedTable, p: seq<Step>)
    requires SourceAt(ts, path).Some? && SourceAt(ts, p).Some?
    requires !OnTheWay(p, path)
    ensures SourceAt(AppendAt(ts, path, join), p) == SourceAt(ts, p)
    decreases |path|
  {
    var r := AppendAt(ts, path, join);
    assert |p| > 0;
    assert p == [p[0]] + p[1..];
    SourceAtStep(ts, p[0], p[1..]);
    SourceAtStep(r, p[0], p[1..]);
    if |path| == 0 {
      match p[0]
      case ViaJoin(i) =>
        assert r.joins[i] == ts.joins[i];
      case ViaNested(i) =>
    } else {
      assert path == [path[0]] + path[1..];
      if p[0] != path[0] {
        match p[0]
        case ViaJoin(i) =>
          assert r.joins[i] == ts.joins[i];
        case ViaNested(i) =>
          assert r.source == ts.source || path[0].ViaNested?;
          if path[0].ViaNested? {
            assert r.source.query.from[i] == ts.source.query.from[i];
          }
      } else {
        assert !OnTheWay(p[1..], path[1..]);
        match p[0]
        case ViaJoin(i) =>
          AppendAtElsewhere(ts.joins[i].table, path[1..], join, p[1..]);
        case ViaNested(i) =>
          AppendAtElsewhere(ts.source.query.from[i], path[1..], join, p[1..]);
      }
    }
  }

  /** Appending a join where the lookup found the table leaves the lookup
      where it was: the target still reads the table, and everything
      searched before it is unchanged. */
  lemma {:induction false} FindInAfterAppend(ts: TableSource, t: SqlTable, path: seq<Step>, join: JoinedTable)
    requires FindIn(ts, t) == Some(path)
    ensures FindIn(AppendAt(ts, path, join), t) == Some(path)
    decreases |path|, 1
  {
    if |path| > 0 {
      var r := AppendAt(ts, path, join);
      match path[0]
      case ViaJoin(i) =>
        JoinsAfterAppend(ts, t, path, join, 0);
      case ViaNested(i) =>
        assert r.joins == ts.joins;
        assert FindInJoins(ts, t, 0).None?;
        assert FindInJoins(r, t, 0).None?;
        NestedAfterAppend(ts, t, path, join, 0);
    }
  }

  lemma {:induction false} JoinsAfterAppend(ts: TableSource, t: SqlTable, path: seq<Step>, join: JoinedTable, start: nat)
    requires start <= |ts.joins|
    requires FindInJoins(ts, t, start) == Some(path)
    requires ts.source != Table(t)
    ensures |AppendAt(ts, path, join).joins| == |ts.joins|
    ensures FindInJoins(AppendAt(ts, path, join), t, start) == Some(path)
    decreases |path|, 0, |ts.joins| - start
  {
    var r := AppendAt(ts, path, join);
    var i := path[0].i;
    assert r.joins == ts.joins[i := ts.joins[i].(table := AppendAt(ts.joins[i].table, path[1..], join))];
    match FindIn(ts.joins[start].table, t)
    case Some(p) =>
      assert path == [ViaJoin(start)] + p;
      assert p == path[1..];
      FindInAfterAppend(ts.joins[start].table, t, p, join);
    case None =>
      assert r.joins[start] == ts.joins[start];
      JoinsAfterAppend(ts, t, path, join, start + 1);
  }

  lemma {:induction false} NestedAfterAppend(ts: TableSource, t: SqlTable, path: seq<Step>, join: JoinedTable, start: nat)
    requires ts.source.Nested? && start <= |ts.source.query.from|
    requires FindInNested(ts, t, start) == Some(path)
    ensures AppendAt(ts, path, join).source.Nested?
    ensures |AppendAt(ts, path, join).source.query.from| == |ts.source.query.from|
    ensures FindInNested(AppendAt(ts, path, join), t, start) == Some(path)
    decreases |path|, 0, |ts.source.query.from| - start
  {
    var r := AppendAt(ts, path, join);
    var q := ts.source.query;
    var i := path[0].i;
    assert r.source == Nested(q.(from := q.from[i := AppendAt(q.from[i], path[1..], join)]));
    match FindIn(q.from[start], t)
    case Some(p) =>
      assert path == [ViaNested(start)] + p;
      assert p == path[1..];
      FindInAfterAppend(q.from[start], t, p, join);
    case None =>
      assert r.source.query.from[start] == q.from[start];
      NestedAfterAppend(ts, t, path, join, start + 1);
  }

  /** The FROM-clause lookup is not moved by a join appended where it
      found the table. */
  lemma {:induction false} FindSourceAfterAppend(from: seq<TableSource>, t: SqlTable, start: nat, loc: Location, join: JoinedTable)
    requires start <= |from| && FindSource(from, t, start) == Some(loc)
    ensures FindSource(from[loc.top := AppendAt(from[loc.top], loc.path, join)], t, start) == Some(loc)
    decreases |from| - start
  {
    var after := from[loc.top := AppendAt(from[loc.top], loc.path, join)];
    if start == loc.top {
      FindInAfterAppend(from[start], t, loc.path, join);
    } else {
      assert after[start] == from[start];
      FindSourceAfterAppend(from, t, start + 1, loc, join);
    }
  }

  /** An association's table appended under its parent's table source in a
      chain `order.Customer.Address`: the parent's table (here `customer`)
      sits in a join of the first source, and the lookup finds it there. */
  lemma ChainedParentFound(order: SqlTable, customer: SqlTable)
    requires order != customer
    ensures var from := [TableSource(Table(order), "", [JoinedTable(Left, true, TableSource(Table(customer), "", []), [])])];
      FindSource(from, customer, 0) == Some(Location(0, [ViaJoin(0)]))
  {
    var inner := TableSource(Table(customer), "", []);
    var outer := TableSource(Table(order), "", [JoinedTable(Left, true, inner, [])]);
    assert FindIn(inner, customer) == Some([]);
    assert [ViaJoin(0)] + [] == [ViaJoin(0)];
    assert FindInJoins(outer, customer, 0) == Some([ViaJoin(0)]);
    assert FindIn(outer, customer) == Some([ViaJoin(0)]);
  }
}

=== FILE: sql_model.dfy ===
/** The small query graph the association builder works on: tables, table
    sources with their joins, search conditions and SQL expressions whose
    leaves are table fields. */
module SqlModel {

  /** Identity of a mapped CLR type (entity type, element type, member type). */
  type TypeTag = string

  /** The join types of the SQL model. The association builder itself only
      produces `Inner` and `Left` joins and only promotes `Inner` and
      `CrossApply`; joins of every kind can reach the parent's query by
      being spliced in from an association query. */
  datatype JoinKind = Inner | Left | CrossApply | OuterApply | Right | Full | Auto

  /** A join whose right side may be missing: its columns can read as NULL. */
  predicate IsOuter(k: JoinKind) {
    k == Left || k == OuterApply
  }

  /** A mapped table instance. `id` tells two instances apart (fields and
      table sources are compared by reference in the builder); `name` stands
      for the qualified physical name and, with `objectType`, is what the
      structural table comparison looks at. */
  datatype SqlTable = SqlTable(id: nat, name: string, objectType: TypeTag, fields: seq<string>)

  datatype SqlExpr =
    | Field(table: nat, name: string)
    | Value(v: int)
    | Binary(op: string, lhs: SqlExpr, rhs: SqlExpr)
    | Unary(op: string, arg: SqlExpr)

  /** The column `name` of table instance `t`. */
  function FieldOf(t: SqlTable, name: string): SqlExpr {
    Field(t.id, name)
  }

  /** One entry of a search condition; `isNot` negates the predicate. */
  datatype Condition = Condition(isNot: bool, pred: SqlExpr)

  /** What a table source reads from: a mapped table, or a nested query,
      which the owner-table search skips and the field walk enters. */
  datatype Source = Table(table: SqlTable) | Nested(query: SelectQuery)

  /** An entry of a FROM clause with the joins hanging off it; the empty
      alias stands for "no alias". */
  datatype TableSource = TableSource(source: Source, alias: string, joins: seq<JoinedTable>)

  datatype JoinedTable = JoinedTable(kind: JoinKind, weak: bool, table: TableSource, condition: seq<Condition>)

  datatype SelectQuery = SelectQuery(from: seq<TableSource>, where: seq<Condition>, columns: seq<SqlExpr>)

  /** Structural table equality: same physical table, same mapped type,
      whatever the instance. */
  predicate IsEqualTables(a: SqlTable, b: SqlTable) {
    a.name == b.name && a.objectType == b.objectType
  }

  /** Translation failures of the association builder. */
  datatype Error =
    | KeyNotFound(key: string, owner: TypeTag)        // association key missing on a table
    | CannotInline                                     // the association query has no table
    | OwnerTableNotFound                               // no table of the association query stands for the parent
    | ParentFieldMissing(name: string)                 // a placeholder column has no namesake on the parent table
    | ParentSourceNotFound                             // the parent table is not a source of the parent query
    | MissingReplaceMap                                // a delegated context without a field map
    | ColumnIndexOutOfRange                            // no inner select-list column at the index
    | MissingJoin                                      // an association on the chain has no join
    | MissingGuard                                     // a null guard over no key column
    | MultipleQueriesNotAllowed(setting: string)       // collection association with multiple queries disabled
    | EmptyFilter                                      // a per-row query with neither keys nor predicate
    | ExpectedConstructor(memberType: TypeTag, elementType: TypeTag)
    | InvalidAliasFormat                               // the association alias pattern is not a valid format string

  /** The configuration switch the multiple-query error names. */
  const AllowMultipleQuerySetting: string := "LinqToDB.Common.Configuration.Linq.AllowMultipleQuery"

  // ---- field references -------------------------------------------------

  /** `e` reads some column of table instance `id`. */
  predicate ExprUsesTable(e: SqlExpr, id: nat) {
    match e
    case Field(t, _) => t == id
    case Value(_) => false
    case Binary(_, l, r) => ExprUsesTable(l, id) || ExprUsesTable(r, id)
    case Unary(_, a) => ExprUsesTable(a, id)
  }

  /** `e` reads some column of some table. */
  predicate ReadsAnyField(e: SqlExpr) {
    match e
    case Field(_, _) => true
    case Value(_) => false
    case Binary(_, l, r) => ReadsAnyField(l) || ReadsAnyField(r)
    case Unary(_, a) => ReadsAnyField(a)
  }

  /** Every column of `t` that `e` reads is one of `t`'s declared fields. */
  predicate ExprFieldsDeclared(e: SqlExpr, t: SqlTable) {
    match e
    case Field(id, n) => id == t.id ==> n in t.fields
    case Value(_) => true
    case Binary(_, l, r) => ExprFieldsDeclared(l, t) && ExprFieldsDeclared(r, t)
    case Unary(_, a) => ExprFieldsDeclared(a, t)
  }

  predicate ConditionsUseTable(cs: seq<Condition>, id: nat) {
    exists i :: 0 <= i < |cs| && ExprUsesTable(cs[i].pred, id)
  }

  predicate ConditionsFieldsDeclared(cs: seq<Condition>, t: SqlTable) {
    forall i :: 0 <= i < |cs| ==> ExprFieldsDeclared(cs[i].pred, t)
  }

  /** Some condition or column anywhere under `ts` reads table `id`: in its
      join tree, or inside the nested query it reads from. */
  predicate SourceUsesTable(ts: TableSource, id: nat)
    decreases ts
  {
    || (ts.source.Nested? && QueryUsesTable(ts.source.query, id))
    || exists i :: 0 <= i < |ts.joins| && JoinUsesTable(ts.joins[i], id)
  }

  /** Some table source, filter condition or column of `q` reads table `id`. */
  predicate QueryUsesTable(q: SelectQuery, id: nat)
    decreases q
  {
    || (exists i :: 0 <= i < |q.from| && SourceUsesTable(q.from[i], id))
    || ConditionsUseTable(q.where, id)
    || exists i :: 0 <= i < |q.columns| && ExprUsesTable(q.columns[i], id)
  }

  predicate JoinUsesTable(j: JoinedTable, id: nat)
    decreases j
  {
    ConditionsUseTable(j.condition, id) || SourceUsesTable(j.table, id)
  }

  predicate JoinsUseTable(js: seq<JoinedTable>, id: nat) {
    exists i :: 0 <= i < |js| && JoinUsesTable(js[i], id)
  }

  predicate SourceFieldsDeclared(ts: TableSource, t: SqlTable)
    decreases ts
  {
    && (ts.source.Nested? ==> QueryFieldsDeclared(ts.source.query, t))
    && forall i :: 0 <= i < |ts.joins| ==> JoinFieldsDeclared(ts.joins[i], t)
  }

  predicate QueryFieldsDeclared(q: SelectQuery, t: SqlTable)
    decreases q
  {
    && (forall i :: 0 <= i < |q.from| ==> SourceFieldsDeclared(q.from[i], t))
    && ConditionsFieldsDeclared(q.where, t)
    && forall i :: 0 <= i < |q.columns| ==> ExprFieldsDeclared(q.columns[i], t)
  }

  predicate JoinFieldsDeclared(j: JoinedTable, t: SqlTable)
    decreases j
  {
    ConditionsFieldsDeclared(j.condition, t) && SourceFieldsDeclared(j.table, t)
  }
}

=== FILE: wrappers.dfy ===
/** Failure-compatible Option and Result types used for the exceptions the
    association builder throws. */
module Wrappers {

  datatype Option<+T> = None | Some(value: T) {

    function GetOr(default: T): T {
      match this
      case Some(v) => v
      case None => default
    }
  }

  datatype Result<+R, +E> = Success(value: R) | Failure(error: E) {

    predicate IsFailure() {
      Failure?
    }

    function PropagateFailure<U>(): Result<U, E>
      requires Failure?
    {
      Failure(error)
    }

    function Extract(): R
      requires Success?
    {
      value
    }
  }
}
